=== FILE: README.md ===
# OpenSC: the Cryptoflex card driver and the CAC PKCS#15 emulator, in Dafny

This project models two parts of OpenSC's `libopensc` and proves properties of them.

- **The Schlumberger Multiflex/Cryptoflex card driver** (`card-flex.c`). It covers:
  - matching a card by its ATR;
  - the driver's class byte;
  - the access-condition nibble table in both directions;
  - decoding the card's file-header reply into an `sc_file`;
  - encoding an `sc_file` into the 16- or 17-byte header that CREATE FILE sends;
  - SELECT FILE, including the locked component-by-component walk of a full path;
  - LIST FILES, DELETE FILE and CREATE FILE.
- **The PKCS#15 emulator for the Common Access Card** (`pkcs15-cac.c`). It covers:
  - card detection and the default token name;
  - the token's default label, manufacturer and hexadecimal serial number;
  - the PIN object;
  - the generic data objects;
  - the certificate loop, which emits a certificate object and, for RSA keys, a public and a private key object per slot;
  - renaming the token after the first certificate's subject CN;
  - the error and clean-up paths, and the `init_ex` entry point.

Modules:

| file | module | contents |
|---|---|---|
| `sc_types.dfy` | `ScTypes` | bytes, `Option`, error codes, paths, `u8` truncation |
| `transport.dfy` | `Transport` | command frames and the card in a reader. The `Card` class holds a scripted list of replies, a position in it, an event trace and the lock depth |
| `flex_acl.dfy` | `FlexAcl` | `ac_to_acl` and `acl_to_ac` over the one 16-entry table |
| `flex_file.dfy` | `FlexFile` | the `sc_file` descriptor as a class, `parse_flex_sf_reply`, and `encode_file_structure` writing into an array |
|  | `FlexFileRoundTrip` | what survives an encode followed by a decode |
| `card_flex.dfy` | `CardFlex` | the driver operations, each proved against a function of the card's script |
| `cac_pass.dfy` | `CacPass` | the emulation pass as functions on a token value, and the lemmas about it |
| `pkcs15_cac.dfy` | `Pkcs15Cac` | the pass as a class `P15Card`. Its methods update the token's label, strings, object store and control-call log in place. Each method is proved equal to the `CacPass` function that specifies it |

The model has some conventions that apply throughout:

- **Card replies.** The card's answers are a fixed script. A transmit past the end of the script fails with `SC_ERROR_TRANSMIT_FAILED`.
- **Status words.** A status word whose first byte is 90 is success. Every other status word maps to a distinct negative code.
- **CAC control calls.** The control calls the CAC pass makes (serial number, ACA path, the generic and certificate enumerations) return what a `CacEnv` value records for them. So do the PKCS#15 store's add operations and the certificate reader and parser.
- **The call log.** Every control call and every clearing of the store is appended to a log. The proofs count calls by kind in that log.

In these places the model follows the code where a reader might expect otherwise:

- `acl_to_ac` encodes UNKNOWN as nibble 5 rather than refusing it, because 5 is the first table entry that is UNKNOWN.
- The default key usage, used when the key-usage extension cannot be read, is data-encipherment plus digital-signature.
- The certificate is read from the slot's own path. Only the private key's path is rebased under 3F00.
- A certificate whose key is not RSA still has its certificate object added; only its key objects are skipped.
- A failed CN extraction does not mark the token as named. A later certificate's CN can therefore still become the label.
- A failing GET_NEXT_CERT_OBJECT call returns its error at once. It calls neither the certificate finalizer nor the store clearing.
- The lister stops while exactly two bytes of room are left (see Findings).

## Model

| member | source | states |
|---|---|---|
| ScTypes.U8 | src/libopensc/card-flex.c:392 | storing a number in a `u8` keeps it modulo 256, and keeps it unchanged when it is below 256 |
| ScTypes.ByteAt | src/libopensc/pkcs15-cac.c:245-246 | a byte of an identifier is its stored byte, or 0 beyond its length (see Left out) |
| Transport.SwToError | src/libopensc/card-flex.c:231-232 | a status word is success (0) exactly when its first byte is 90; otherwise the code is negative |
| Transport.Truncate | src/libopensc/card-flex.c:175-176 | the response kept is a prefix of the card's data and no longer than the buffer; data that fits is kept whole |
| Transport.Receive | src/libopensc/card-flex.c:227-230 | a transport failure gives its code; a delivered response gives 0 and a bounded prefix of the data |
| Transport.ReplyError | src/libopensc/card-flex.c:306-308 | the code returned after a transmit and a status-word check is 0 exactly when the reply was delivered with a success status word |
| Transport.SentFirst | src/libopensc/card-flex.c:196-205 | the events of sending the first n commands number n |
| Transport.Card.Transmit | src/libopensc/card-flex.c:227 | one command is appended to the trace and consumes the next scripted reply, whose received form is returned |
| Transport.Card.Lock | src/libopensc/card-flex.c:186-188 | a successful lock raises the depth by one and logs it; a failed lock changes nothing |
| Transport.Card.Unlock | src/libopensc/card-flex.c:192-193 | releasing a held lock lowers the depth by one and logs it |
| FlexAcl.AcToAcl | src/libopensc/card-flex.c:75-85 | every nibble reads as a table condition; it reads as UNKNOWN exactly for nibbles 5 and A-E; a named condition comes from no other nibble |
| FlexAcl.IndexFrom | src/libopensc/card-flex.c:322-325 | the search from entry i finds the first equal entry at or after i, or -1 exactly when there is none |
| FlexAcl.AcCode | src/libopensc/card-flex.c:311-326 | the code is -1 exactly for a condition outside the table; otherwise it is the first index holding the condition |
| FlexAcl.AclToAc | src/libopensc/card-flex.c:311-326 | the linear search returns the first matching index, or -1 exactly when no entry matches |
| FlexAcl.NamedNibbleRoundTrip | src/libopensc/card-flex.c:75-85 | a nibble that names a condition is encoded back as itself |
| FlexAcl.ConditionRoundTrip | src/libopensc/card-flex.c:311-326 | every condition in the table survives encoding and then decoding |
| FlexAcl.UnknownWrittenAsFive | src/libopensc/card-flex.c:314-324 | UNKNOWN is encoded as nibble 5 rather than refused |
| FlexFile.File.Reset | src/libopensc/card-flex.c:247-249 | the descriptor is zeroed and every ACL slot is UNKNOWN |
| FlexFile.StructureOfCode | src/libopensc/card-flex.c:102-118 | exactly the type bytes 01, 02, 04 and 06 name an EF structure |
| FlexFile.StructureCode | src/libopensc/card-flex.c:343-357 | exactly the four EF structures have a type byte; that byte is not the DF byte and decodes back to the structure |
| FlexFile.ParseReply | src/libopensc/card-flex.c:87-161 | the result is -1 exactly for a reply under 14 bytes, and UNKNOWN_REPLY exactly for an unknown type byte. Otherwise size and id are big-endian, the kind and structure come from the type byte, the status is ACTIVATED exactly when byte 11 is non-zero, and the record fields are kept. A failed parse keeps the ACLs, status and kind |
| FlexFile.ParsedSlots | src/libopensc/card-flex.c:127-150 | a DF's LIST FILES, DELETE and CREATE and an EF's READ and UPDATE (not for a cyclic EF) come from the nibbles of bytes 8-9. REHABILITATE and INVALIDATE come from byte 10. Every other slot keeps its value |
| FlexFile.ParseFlexReply | src/libopensc/card-flex.c:87-161 | the method returns the parse's code and leaves the descriptor as the parse defines it |
| FlexFile.ParseAclStatus | src/libopensc/card-flex.c:127-158 | the three ACL bytes set the slots `ParsedAcl` defines for the descriptor's type, the status byte sets ACTIVATED or INVALIDATED, the descriptor is marked valid, and every other field keeps its value |
| FlexFile.Pack | src/libopensc/card-flex.c:363-381 | as written, a packed ACL byte holds only the low nibble |
| FlexFile.BigEndian16 | src/libopensc/card-flex.c:336-339 | two bytes whose big-endian value is the number modulo 2^16 |
| FlexFile.TypeCode | src/libopensc/card-flex.c:340-358 | a type byte exists exactly for a DF or one of the four EF structures |
| FlexFile.StatusByte | src/libopensc/card-flex.c:383 | the status byte is 0 exactly when the INVALIDATED bit is set |
| FlexFile.LayoutByte | src/libopensc/card-flex.c:384-389 | the layout byte is 4 exactly for a linear-fixed or cyclic EF, and 3 otherwise |
| FlexFile.Prefix | src/libopensc/card-flex.c:334-359 | the header starts FF FF, then size and id big-endian, the type byte and FF |
| FlexFile.Header | src/libopensc/card-flex.c:334-390 | the 16-byte header is the prefix, the three ACL bytes and the five trailer bytes |
| FlexFile.Encode | src/libopensc/card-flex.c:328-398 | encoding succeeds exactly when the type is encodable and every needed ACL has a code. The result is 17 bytes for the extended layout and 16 otherwise, and the 17th byte is the record length truncated to a byte |
| FlexFile.EncodedPrefix | src/libopensc/card-flex.c:334-359 | the encoding's bytes 0-7 hold the marker, size and id modulo 2^16, the type byte and FF |
| FlexFile.EncodedTrailer | src/libopensc/card-flex.c:383-395 | bytes 11-16 hold the status byte (0 iff invalidated), the layout byte, three zeros and the truncated record length |
| FlexFile.EncodedAcl | src/libopensc/card-flex.c:360-382 | bytes 8-10 are the ACL bytes |
| FlexFile.EncodeIsHeaderTail | src/libopensc/card-flex.c:334-395 | the encoding is the prefix, then the ACL bytes, then the tail |
| FlexFile.WritePrefix | src/libopensc/card-flex.c:334-359 | the prefix is written exactly when the type is encodable; bytes 0-1 are FF FF even on failure and nothing after byte 7 changes |
| FlexFile.WriteAcl | src/libopensc/card-flex.c:360-382 | bytes 8 to 10 hold the ACL bytes exactly when every condition the file's kind looks up has a code; on failure the result is -1 and the marker and everything from byte 11 on are untouched |
| FlexFile.WriteDfAcl | src/libopensc/card-flex.c:360-369 | a DF's ACL bytes are written exactly when LIST FILES, DELETE and CREATE all have codes; otherwise the result is -1 |
| FlexFile.WriteDfContentAcl | src/libopensc/card-flex.c:364-369 | bytes 9-10 are written from DELETE and CREATE exactly when both have codes |
| FlexFile.WriteEfAcl | src/libopensc/card-flex.c:370-382 | an EF's ACL bytes are written exactly when READ, UPDATE, INVALIDATE and REHABILITATE all have codes |
| FlexFile.WriteEfAccess | src/libopensc/card-flex.c:371-376 | bytes 8-9 are written from READ and UPDATE exactly when both have codes; otherwise the buffer is untouched |
| FlexFile.WriteEfStatusAcl | src/libopensc/card-flex.c:377-381 | byte 10 is written from INVALIDATE and REHABILITATE exactly when both have codes |
| FlexFile.Tail | src/libopensc/card-flex.c:383-395 | the tail is six bytes for the extended layout and five otherwise |
| FlexFile.WriteTail | src/libopensc/card-flex.c:383-395 | bytes from 11 on are the tail and the returned length is 11 plus its length |
| FlexFile.EncodeFileStructure | src/libopensc/card-flex.c:328-398 | the result is 0 exactly when the as-written encoding exists; the buffer then holds it and the length is its length; otherwise the result is -1 |
| FlexFileRoundTrip.StoredStatus | src/libopensc/card-flex.c:152-155 | the status read back is INVALIDATED exactly when the INVALIDATED bit was set |
| FlexFileRoundTrip.HeaderRoundTrip | src/libopensc/card-flex.c:87-161 | decoding an encoded header gives back size, id, kind, EF structure and status, whatever the descriptor held before |
| FlexFileRoundTrip.PackNibbles | src/libopensc/card-flex.c:363-381 | the intended packing keeps both nibbles; as written the high nibble is always 0 |
| FlexFileRoundTrip.ReadBack | src/libopensc/card-flex.c:75-85 | a condition with a code decodes back to itself |
| FlexFileRoundTrip.IntendedDfAclRoundTrip | src/libopensc/card-flex.c:360-369 | with the intended packing a DF's LIST FILES, DELETE and CREATE survive an encode and a decode |
| FlexFileRoundTrip.IntendedEfAclRoundTrip | src/libopensc/card-flex.c:370-382 | with the intended packing an EF's READ, INVALIDATE, REHABILITATE and UPDATE (not for a cyclic EF) survive |
| FlexFileRoundTrip.AsWrittenAclRoundTrip | src/libopensc/card-flex.c:363-381 | as written, every high-nibble condition comes back as NONE and REHABILITATE arrives in the INVALIDATE slot; only CREATE and UPDATE survive |
| FlexFileRoundTrip.HighNibbleLost | src/libopensc/card-flex.c:375 | a transparent EF readable after CHV1 is created readable by everyone |
| FlexFileRoundTrip.StatusNibblesSwapped | src/libopensc/card-flex.c:377-381 | the same EF, never invalidatable, reads back as invalidatable after CHV1 |
| CardFlex.MatchCard | src/libopensc/card-flex.c:43-65 | 1 exactly when the ATR equals one of the two Cryptoflex ATRs, else 0 |
| CardFlex.Init | src/libopensc/card-flex.c:67-73 | returns 0 and sets the class byte to C0 |
| CardFlex.Component | src/libopensc/card-flex.c:196-199 | a path component is two bytes |
| CardFlex.Plan | src/libopensc/card-flex.c:163-252 | every select sends at least one command |
| CardFlex.FinalOutcome | src/libopensc/card-flex.c:227-251 | a failed reply gives its error and leaves the descriptor. Without a descriptor the status code is returned. A short reply or an FCI reply gives UNKNOWN_REPLY. Otherwise the result is the parse of the reply, truncated to the APDU buffer, into a cleared descriptor |
| CardFlex.Outcome | src/libopensc/card-flex.c:191-205 | a run of n selects from command i sends between i+1 and n commands |
| CardFlex.Select | src/libopensc/card-flex.c:163-252 | a select sends no more commands than its plan holds |
| CardFlex.ComponentSelect | src/libopensc/card-flex.c:211-237 | a 2-byte component selected without a descriptor sends one SELECT and returns that reply's error |
| CardFlex.SelectComponent | src/libopensc/card-flex.c:197-202 | one recursive select of a component consumes one reply, returns its error and leaves the lock depth |
| CardFlex.Traverse | src/libopensc/card-flex.c:189-205 | the walk under the lock selects the MF (unless the path starts there) and then each inner component. It stops at the first failing select and agrees with `Outcome` |
| CardFlex.WalkInner | src/libopensc/card-flex.c:196-205 | the loop over inner components agrees with `Outcome` and sends exactly the planned commands |
| CardFlex.Conclude | src/libopensc/card-flex.c:230-251 | the checks on the last reply return `FinalOutcome`'s code and leave the descriptor as it says |
| CardFlex.Finish | src/libopensc/card-flex.c:225-251 | the last command is sent, the lock is released when it was taken, and the result is `FinalOutcome` of the reply |
| CardFlex.SelectFile | src/libopensc/card-flex.c:163-252 | the code, the replies consumed, the trace (the plan's commands inside Lock/Unlock when walking) and the descriptor are those `Select` defines; the lock depth is unchanged |
| CardFlex.SelectPath | src/libopensc/card-flex.c:180-207 | the same for a full path |
| CardFlex.SelectWalked | src/libopensc/card-flex.c:183-206 | the same for a walked path, including a failing lock |
| CardFlex.SelectLocked | src/libopensc/card-flex.c:189-229 | the same once the lock is held; it is released exactly once |
| CardFlex.LockedSelect | src/libopensc/card-flex.c:189-229 | once the lock is held, a select ends with the error of the inner select that failed, after the commands sent so far, or, after the whole walk, with what the reply to the last select gives, that select being sent last |
| CardFlex.SelectLast | src/libopensc/card-flex.c:208-251 | the same for a path that is not walked: MF, DF name or file id |
| CardFlex.OutcomeEnds | src/libopensc/card-flex.c:191-205 | a walk ends at the first failing inner select with that select's error and the descriptor untouched; it runs through exactly when every inner select succeeds |
| CardFlex.OutcomeNext | src/libopensc/card-flex.c:195-203 | an inner select that fails ends the run with its error after one more command; one that succeeds hands the run to the next command |
| CardFlex.SelectGuards | src/libopensc/card-flex.c:180-214 | an odd-length path or file id is refused with nothing sent; a failing lock returns its code with nothing sent |
| CardFlex.PlanCommands | src/libopensc/card-flex.c:174-226 | every command is a SELECT (INS A4, P2 0); inner selects have P1 0 and no response; only the last asks for a response, and only when a descriptor is wanted; a DF name has P1 04 |
| CardFlex.PlanWalksPath | src/libopensc/card-flex.c:183-217 | a walked path selects the MF first unless it starts there, then every inner component in order, and the last component last |
| CardFlex.SelectTraceLocks | src/libopensc/card-flex.c:186-229 | the lock is taken at most once and released exactly once, first and last |
| CardFlex.ListPage | src/libopensc/card-flex.c:267-279 | 6A82 ends the listing; a success with 4 bytes gives the id in bytes 2-3; a short success gives ILLEGAL_RESPONSE; any other failure gives its error |
| CardFlex.ListFrom | src/libopensc/card-flex.c:266-284 | the listing never exceeds the room, keeps what was written and returns a code of 0 or below |
| CardFlex.ListEvents | src/libopensc/card-flex.c:261-267 | n LIST FILES commands give n events |
| CardFlex.ListFiles | src/libopensc/card-flex.c:254-285 | the result is the error, or the number of bytes listed. The buffer holds the ids read and nothing beyond them changes. One command is sent per page read |
| CardFlex.CopyId | src/libopensc/card-flex.c:279 | the two identifier bytes land at the current count and every other byte of the buffer keeps its value |
| CardFlex.ReadPage | src/libopensc/card-flex.c:267-278 | one LIST FILES command is sent and its reply classified by `ListPage` |
| CardFlex.ListKeeps | src/libopensc/card-flex.c:279-282 | a listing adds whole 2-byte ids after what was written, and stops before the room is full |
| CardFlex.ListPagesRead | src/libopensc/card-flex.c:279 | the k-th id listed is bytes 2-3 of the k-th reply |
| CardFlex.ListEnds | src/libopensc/card-flex.c:266-284 | a listing ends on a failing page with its error, on 6A82, or when the room is exhausted, and every earlier command gave a page |
| CardFlex.ListCount | src/libopensc/card-flex.c:254-285 | a successful listing is an even count, below the buffer length, and its k-th id is bytes 2 and 3 of the k-th reply |
| CardFlex.ListLeavesTwo | src/libopensc/card-flex.c:266 | as written, a card with enough files fills all but the last two bytes |
| CardFlex.ListFillsBuffer | src/libopensc/card-flex.c:266 | with the loop test continuing while more than one byte is left, the buffer is filled to within one byte |
| CardFlex.ListStopsEarly | src/libopensc/card-flex.c:266 | a 6-byte buffer and three files: 4 bytes as written, 6 with the corrected test |
| CardFlex.DeleteFile | src/libopensc/card-flex.c:287-309 | a refused path gives INVALID_ARGUMENTS with nothing sent; otherwise one DELETE FILE carrying the path's first two bytes is sent and its error returned |
| CardFlex.DeleteFileIntended | src/libopensc/card-flex.c:293-308 | with the guard the error message asks for, anything but a 2-byte file id gives INVALID_ARGUMENTS with nothing sent; a 2-byte file id is sent as itself in one DELETE FILE and its error returned |
| CardFlex.Transact | src/libopensc/card-flex.c:306-308 | one command is sent and the reply's transport or status-word error returned |
| CardFlex.DeleteIntended | src/libopensc/card-flex.c:294-299 | the intended guard lets only a 2-byte file id through, whose bytes are exactly what is sent; the written guard differs from it exactly on file ids not 2 bytes long and on 2-byte paths that are not file ids, and lets both through |
| CardFlex.DeleteGuardLetsPathThrough | src/libopensc/card-flex.c:294 | the full path 3F00 passes the written guard though the intended guard refuses it, and the DELETE FILE command carries 3F00 |
| CardFlex.CreateFile | src/libopensc/card-flex.c:400-425 | a descriptor that cannot be encoded gives INVALID_ARGUMENTS with nothing sent; otherwise CREATE FILE with the as-written header is sent, with P2 the record count truncated to a byte for an EF that is not transparent and 0 for a DF or a transparent EF, and its error returned |
| CacPass.DetectCard | src/libopensc/pkcs15-cac.c:64-73 | success exactly for a card type in the CAC range of 1000 types; otherwise INVALID_CARD |
| CacPass.CardName | src/libopensc/pkcs15-cac.c:77-86 | the name is "CAC I", "CAC II" or "CAC ALT HID" for those three card types, and exactly "CAC" for every other type |
| CacPass.HexDigit | src/libopensc/pkcs15-cac.c:137 | the digit is a lower-case hexadecimal digit (0-9 exactly for values below 10) and reads back as its value |
| CacPass.DigitValue | src/libopensc/pkcs15-cac.c:137 | a hex digit's value is below 16 |
| CacPass.Hex | src/libopensc/pkcs15-cac.c:137 | the serial text has two characters per byte, each a lower-case hexadecimal digit |
| CacPass.Unhex | src/libopensc/pkcs15-cac.c:137 | reading hex text gives one byte per two digits |
| CacPass.HexRoundTrip | src/libopensc/pkcs15-cac.c:137 | reading back the hex text of any bytes gives those bytes |
| CacPass.SerialString | src/libopensc/pkcs15-cac.c:132-139 | a failed serial call gives "00000000"; otherwise the text is lower-case hexadecimal digits, two per byte, that read back as the serial |
| CacPass.RebasedKeyPath | src/libopensc/pkcs15-cac.c:235-243 | a path of 1 or 2 bytes gets 3F00 put in front of it; any other path is unchanged |
| CacPass.KeyReference | src/libopensc/pkcs15-cac.c:245-246 | the key reference is a 16-bit number whose high byte is id byte 0 and low byte id byte 1 |
| CacPass.ModulusBits | src/libopensc/pkcs15-cac.c:335-336 | the modulus length in bits is eight times its length in bytes |
| CacPass.Defaults | src/libopensc/pkcs15-cac.c:126-139 | the label is the card's name and the manufacturer "Common Access Card". The serial is "00000000" after a failed call, else the hex text of the serial. Objects are kept and one serial call is logged |
| CacPass.CertUsage | src/libopensc/pkcs15-cac.c:321-324 | the extension's usage when it was read, else data-encipherment plus digital-signature |
| CacPass.Finish | src/libopensc/pkcs15-cac.c:363-367 | the code is 0 exactly for a completed pass; a failure that goes to `err` clears the store, a direct return does not |
| CacPass.PinsFrom | src/libopensc/pkcs15-cac.c:146-177 | the PIN loop ends either completed or failing into `err`, never by a direct return |
| CacPass.GenericFrom | src/libopensc/pkcs15-cac.c:183-195 | the data-object loop ends either completed or failing into `err` |
| CacPass.Emitted | src/libopensc/pkcs15-cac.c:230-349 | an added slot emits its certificate object (id, bytes read, path cleared) and, for RSA, a public and a private key. The keys share the id, label, key reference, modulus bits, usage and native flag. The private key has the rebased path, the private flag and auth id "1". A skipped slot emits nothing |
| CacPass.SlotStep | src/libopensc/pkcs15-cac.c:209-358 | one slot logs one GET_NEXT_CERT_OBJECT call. A failing call returns at once. The slot aborts exactly when its certificate was added and a fatal step followed. Otherwise it appends exactly its emitted objects. The token is renamed exactly by the first CN extracted whose copy was allocated |
| CacPass.NameStep | src/libopensc/pkcs15-cac.c:293-349 | naming then keys: an unnamed token takes the CN, a failed allocation is fatal, and the key objects are appended on success |
| CacPass.KeyStep | src/libopensc/pkcs15-cac.c:316-349 | an SPKI failure, or a failing public or private add for an RSA key, is fatal; otherwise the RSA keys are appended and a non-RSA key appends nothing |
| CacPass.Emulate | src/libopensc/pkcs15-cac.c:88-368 | the pass returns 0 or a negative error |
| CacPass.InitEx | src/libopensc/pkcs15-cac.c:370-381 | a card that is not a CAC gives WRONG_CARD with the token untouched; otherwise the pass's result |
| CacPass.PinsKeep | src/libopensc/pkcs15-cac.c:146-177 | the PIN loop only appends objects, keeps the token's strings and makes no call but GET_ACA_PATH |
| CacPass.GenericKeeps | src/libopensc/pkcs15-cac.c:183-195 | the data loop never returns directly, only appends, adds one object per data object when it completes, and makes no call but GET_NEXT_GENERIC_OBJECT |
| CacPass.GenericPhaseKeeps | src/libopensc/pkcs15-cac.c:180-197 | the data phase makes only data-object calls and, when it completes, has called the data finalizer once |
| CacPass.PreludeKeeps | src/libopensc/pkcs15-cac.c:126-197 | up to the certificates, the label is the card's name, manufacturer and serial are set, no certificate call and no clearing happened, and a completed prelude has finalized the data objects once |
| CacPass.GenericFailureClears | src/libopensc/pkcs15-cac.c:187-197 | a failing data object ends the pass with an error and an empty store, with neither the data finalizer nor any certificate call, and exactly one clearing |
| CacPass.GenericFailurePrelude | src/libopensc/pkcs15-cac.c:187-195 | a failing data object fails the steps before the certificates without calling the data finalizer |
| CacPass.CertLoopKeeps | src/libopensc/pkcs15-cac.c:209-359 | the certificate loop only appends, keeps manufacturer and serial, makes no call but GET_NEXT_CERT_OBJECT, and never renames a named token |
| CacPass.CertLoopObjects | src/libopensc/pkcs15-cac.c:209-359 | a loop that runs through adds every slot's objects, in slot order |
| CacPass.CertLoopLabel | src/libopensc/pkcs15-cac.c:293-313 | a loop that runs through labels the token with the CN of the first slot that names it, or leaves the label |
| CacPass.CertLoopNamed | src/libopensc/pkcs15-cac.c:294-313 | after the loop the token is named exactly when some slot named it |
| CacPass.CertPhaseRunsThrough | src/libopensc/pkcs15-cac.c:360-367 | after a complete loop the finalizer runs once; the pass succeeds without clearing exactly when it succeeds, else it returns its error with an empty store |
| CacPass.CertPhaseStops | src/libopensc/pkcs15-cac.c:220-221 | an aborting slot's error is returned after one finalizer call and a clearing; a failing GET_NEXT_CERT_OBJECT's error is returned with neither, and the store kept |
| CacPass.CertEndings | src/libopensc/pkcs15-cac.c:206-367 | the four ways the pass can end once the certificate loop is entered, with the code, store, finalizer count and clearing count of each |
| CacPass.EmulateSucceeds | src/libopensc/pkcs15-cac.c:88-363 | a successful pass is labelled with the first naming CN or the card's name. Manufacturer and serial are set, each finalizer ran once, nothing was cleared, and the store ends with every slot's objects in order |
| Pkcs15Cac.RebaseKeyPath | src/libopensc/pkcs15-cac.c:237-243 | the in-place shift of the 16-byte path buffer leaves `RebasedKeyPath` of the old path in front; bytes from 4 on are kept, and any other length changes nothing |
| Pkcs15Cac.P15Card.CtlSerialNr | src/libopensc/pkcs15-cac.c:132 | logs GET_SERIALNR and returns the card's answer |
| Pkcs15Cac.P15Card.CtlAcaPath | src/libopensc/pkcs15-cac.c:172 | logs GET_ACA_PATH and returns the card's answer |
| Pkcs15Cac.P15Card.CtlInitGeneric | src/libopensc/pkcs15-cac.c:180 | logs INIT_GET_GENERIC_OBJECTS and returns its code and the object count |
| Pkcs15Cac.P15Card.CtlNextGeneric | src/libopensc/pkcs15-cac.c:187 | logs GET_NEXT_GENERIC_OBJECT and returns the i-th object's answer |
| Pkcs15Cac.P15Card.CtlFinalGeneric | src/libopensc/pkcs15-cac.c:196 | logs FINAL_GET_GENERIC_OBJECTS and returns its code |
| Pkcs15Cac.P15Card.CtlInitCerts | src/libopensc/pkcs15-cac.c:206 | logs INIT_GET_CERT_OBJECTS and returns its code and the slot count |
| Pkcs15Cac.P15Card.CtlNextCert | src/libopensc/pkcs15-cac.c:220 | logs GET_NEXT_CERT_OBJECT and returns the i-th slot's answer |
| Pkcs15Cac.P15Card.CtlFinalCerts | src/libopensc/pkcs15-cac.c:355 | logs FINAL_GET_CERT_OBJECTS and returns its code |
| Pkcs15Cac.P15Card.Store | src/libopensc/pkcs15-cac.c:175 | an object is appended to the store exactly when the add succeeds |
| Pkcs15Cac.P15Card.Clear | src/libopensc/pkcs15-cac.c:366 | the store is emptied and the clearing logged |
| Pkcs15Cac.P15Card.SetDefaults | src/libopensc/pkcs15-cac.c:126-139 | the token becomes `Defaults` of the old token |
| Pkcs15Cac.P15Card.AddPins | src/libopensc/pkcs15-cac.c:146-177 | the loop's code and new token are `Finish(PinsFrom)` of the old token |
| Pkcs15Cac.P15Card.GenericLoop | src/libopensc/pkcs15-cac.c:183-195 | the loop leaves the token `GenericFrom` defines and returns its code |
| Pkcs15Cac.P15Card.AddGeneric | src/libopensc/pkcs15-cac.c:180-197 | code and token are `Finish` of the data phase |
| Pkcs15Cac.P15Card.AddKeys | src/libopensc/pkcs15-cac.c:316-349 | the token and slot ending are `KeyStep`'s |
| Pkcs15Cac.P15Card.NameToken | src/libopensc/pkcs15-cac.c:293-349 | the token, slot ending and naming flag are `NameStep`'s |
| Pkcs15Cac.P15Card.ProcessSlot | src/libopensc/pkcs15-cac.c:209-358 | the token, slot ending and naming flag are `SlotStep`'s for slot i |
| Pkcs15Cac.P15Card.WalkCerts | src/libopensc/pkcs15-cac.c:209-359 | the loop ends as `CertLoop` over every slot defines |
| Pkcs15Cac.P15Card.AddCerts | src/libopensc/pkcs15-cac.c:206-367 | code and token are `Finish` of the certificate phase |
| Pkcs15Cac.P15Card.Init | src/libopensc/pkcs15-cac.c:88-368 | code and token are `Emulate` of the old token |
| Pkcs15Cac.P15Card.InitEx | src/libopensc/pkcs15-cac.c:370-381 | code and token are `CacPass.InitEx` of the old token |

## Left out

- The reader and transport (`sc_transmit_apdu`), `sc_lock`/`sc_unlock` and `sc_sw_to_errorcode`. They are modelled as a scripted reply list, a lock counter with a fixed lock result, and a status-word rule (90xx is success, any other status word is a distinct negative code). The base driver's full status-word table is not part of this model.
- The numeric values of the header constants (`SC_AC_*`, `SC_FILE_*`, error codes, CAC card types). These come from headers that are not part of this model. The values used are OpenSC's usual ones; the proofs rely only on their distinctness and signs.
- The ACL slots of `sc_file` are modelled as distinct named fields. Their indices in the `acl` array come from a header that is not part of this model.
- `flex_match_card` converts its ATR strings with `sc_hex_to_bin`. The model holds them as byte sequences.
- `flex_finish` (which returns 0) and driver registration (`sc_get_driver`, `sc_get_flex_driver`) are not modelled.
- In `flex_select_file`, the temporary path used for the inner selects has an uninitialised type when the path starts with 3F00, because no MF select has formatted it; otherwise the MF select at card-flex.c:190 made it a file-id path. The model treats every inner select as a select by file id.
- CardFlex.SelectFile requires a full path to be non-empty. For a zero-length path the C code compares two bytes past the path's length, whose values are unspecified.
- The `left` byte of the reply (card-flex.c:156) is read and ignored, and the cyclic DECREASE condition is compiled out. Neither is modelled.
- Logging and memory management are not modelled: frees, `malloc` of buffers other than the token name, `memset` of local structures.
- X.509 handling is taken as given per certificate slot:
  - the certificate read (`sc_pkcs15_read_file`);
  - parsing and the presence of a key (`sc_pkcs15_read_certificate`);
  - CN extraction (`sc_pkcs15_get_name_from_dn`), and whether the copy's allocation succeeds;
  - SPKI encoding;
  - the key-usage extension;
  - the key algorithm and modulus length.

  The read is modelled as a lookup in a map from path to certificate bytes.
- `sc_pkcs15_map_usage` is not part of this model. The public and private key objects record the X.509 usage handed to it.
- The PKCS#15 store's add functions are results given per object. The model assumes an object is kept exactly when its add returns success.
- `sc_pkcs15_card_clear` is not part of this model. It is modelled as emptying the object store and logging the clearing; the token's strings are not reset.
- ByteAt: bytes past an identifier's length are taken as 0. The C code reads whatever the buffer holds there: `obj_info.id.value` (pkcs15-cac.c:245-246), which the vendor control call fills and this pass never zeroes, and `path->value[0..1]` in `flex_delete_file` (card-flex.c:298-299), whatever the path's length. So for an identifier or file-id path shorter than 2 bytes the model fixes bytes the C code leaves unspecified.
- `sc_bin_to_hex` is modelled with lower-case digits and no separator. Its output-buffer check is not modelled, because the buffer is sized for the longest serial.
- `sc_pkcs15_format_id` and `sc_format_path` are modelled by storing the id text and the path bytes directly.
- The certificate cache (pkcs15-cac.c:268-274) is modelled by giving the certificate object the bytes read and an empty path.
- CacPass.Emulate: its own contract only bounds the code; what the pass does is stated by the lemmas about it (`EmulateSucceeds`, `CertEndings`, `GenericFailureClears`, `PreludeKeeps`).

## Findings

| source | as written | input that shows it | evidently intended | confidence | as-written member | corrected member |
|---|---|---|---|---|---|---|
| src/libopensc/card-flex.c:363,368,375,381 | `(r & 0x0F) << 8` is stored in a `u8`, so the high nibble of every ACL byte is always 0 | a transparent EF whose READ is CHV1 (nibble 1): byte 8 becomes 0x0X and reads back as NONE | `<< 4`, so the parser's `>> 4` reads the high nibble back | not executed | FlexFileRoundTrip.HighNibbleLost | FlexFileRoundTrip.IntendedEfAclRoundTrip |
| src/libopensc/card-flex.c:377-381 | byte 10 is built with INVALIDATE high and REHABILITATE low, but the parser (card-flex.c:149-150) reads REHABILITATE high and INVALIDATE low | the same EF with INVALIDATE NEVER and REHABILITATE CHV1 reads back with INVALIDATE CHV1 | REHABILITATE in the high nibble and INVALIDATE in the low one | not executed | FlexFileRoundTrip.StatusNibblesSwapped | FlexFileRoundTrip.IntendedEfAclRoundTrip |
| src/libopensc/card-flex.c:294 | the guard refuses a path only when it is not a file id AND its length is not 2 | a full path `3F 00` of length 2 passes, and DELETE FILE 3F00 is sent | refuse anything but a 2-byte file id, as the error message says | not executed | CardFlex.DeleteGuardLetsPathThrough | CardFlex.DeleteFileIntended |
| src/libopensc/card-flex.c:266 | the loop runs while more than 2 bytes of room are left, so the last 2-byte id never fits | a 6-byte buffer and a card with three files: 4 bytes are listed | run while at least 2 bytes are left (more than 1) | not executed | CardFlex.ListStopsEarly | CardFlex.ListFillsBuffer |

=== FILE: cac_pass.dfy ===
/** The CAC PKCS#15 emulation pass (pkcs15-cac.c) as values: card detection,
    the default token strings, private-key path rebasing, key reference and
    modulus length, and the decisions the pass takes for each PIN, data object
    and certificate slot, given what the card's control calls and the PKCS#15
    store report. The pass itself, which updates the token in place, is the
    class in pkcs15_cac.dfy; it is proved against `Emulate` below. */
module CacPass {
  import opened ScTypes

  // Card types of the CAC family. Their values live in a header that is not
  // part of this model; the pass relies only on the three named types being
  // distinct members of the CAC range.
  const SC_CARD_TYPE_CAC_GENERIC: int := 27000
  const SC_CARD_TYPE_CAC_I: int := 27001
  const SC_CARD_TYPE_CAC_II: int := 27002
  const SC_CARD_TYPE_CAC_ALT_HID: int := 27003

  // PKCS#15 and X.509 flag bits, from headers that are not part of this model.
  const SC_PKCS15_PIN_AUTH_TYPE_PIN: int := 0
  const SC_PKCS15_PIN_TYPE_ASCII_NUMERIC: int := 1
  const SC_PKCS15_PIN_FLAG_INITIALIZED: int := 0x0010
  const SC_PKCS15_PIN_FLAG_NEEDS_PADDING: int := 0x0020
  const SC_PKCS15_CO_FLAG_PRIVATE: int := 0x0001
  const SC_X509_DIGITAL_SIGNATURE: nat := 0x0001
  const SC_X509_DATA_ENCIPHERMENT: nat := 0x0008

  /** The size of the value buffer of `struct sc_path`. */
  const SC_MAX_PATH_SIZE: nat := 16

  /** The manufacturer written into every CAC token. */
  const MANU_ID: string := "Common Access Card"

  /** The serial written when the card cannot report one. */
  const NO_SERIAL: string := "00000000"

  /** The key usage assumed for a certificate whose keyUsage extension
      (OID 2.5.29.15) cannot be read: data encipherment and digital signature.
      The two bits are disjoint, so their sum is their bitwise or. */
  const DEFAULT_USAGE: nat := SC_X509_DATA_ENCIPHERMENT + SC_X509_DIGITAL_SIGNATURE

  /** `cac_detect_card`: success exactly for the thousand card types starting at CAC_GENERIC. */
  function DetectCard(cardType: int): (r: int)
    ensures r == SC_SUCCESS <==> SC_CARD_TYPE_CAC_GENERIC <= cardType < SC_CARD_TYPE_CAC_GENERIC + 1000
    ensures r != SC_SUCCESS ==> r == SC_ERROR_INVALID_CARD
  {
    if cardType < SC_CARD_TYPE_CAC_GENERIC || cardType >= SC_CARD_TYPE_CAC_GENERIC + 1000 then
      SC_ERROR_INVALID_CARD
    else
      SC_SUCCESS
  }

  /** The three card types that have a name of their own. */
  predicate NamedType(cardType: int) {
    cardType == SC_CARD_TYPE_CAC_I || cardType == SC_CARD_TYPE_CAC_II || cardType == SC_CARD_TYPE_CAC_ALT_HID
  }

  /** `cac_get_name`: the default token label for a card type. */
  function CardName(cardType: int): (name: string)
    ensures |name| >= 3 && name[..3] == "CAC"
    ensures name == "CAC" <==> !NamedType(cardType)
    ensures cardType == SC_CARD_TYPE_CAC_I ==> name == "CAC I"
    ensures cardType == SC_CARD_TYPE_CAC_II ==> name == "CAC II"
    ensures cardType == SC_CARD_TYPE_CAC_ALT_HID ==> name == "CAC ALT HID"
  {
    if cardType == SC_CARD_TYPE_CAC_I then "CAC I"
    else if cardType == SC_CARD_TYPE_CAC_II then "CAC II"
    else if cardType == SC_CARD_TYPE_CAC_ALT_HID then "CAC ALT HID"
    else "CAC"
  }

  /** A lower-case hexadecimal digit. */
  predicate IsHexDigit(c: char) {
    '0' <= c <= '9' || 'a' <= c <= 'f'
  }

  /** The lower-case hexadecimal digit for a nibble, as `sc_bin_to_hex` writes it. */
  function HexDigit(n: int): (c: char)
    requires 0 <= n < 16
    ensures IsHexDigit(c) && DigitValue(c) == n
    ensures n < 10 <==> '0' <= c <= '9'
  {
    if n < 10 then ('0' as int + n) as char else ('a' as int + n - 10) as char
  }

  /** The value of a lower-case hexadecimal digit (0 for any other character). */
  function DigitValue(c: char): (v: nat)
    ensures v < 16
  {
    if '0' <= c <= '9' then c as int - '0' as int
    else if 'a' <= c <= 'f' then c as int - 'a' as int + 10
    else 0
  }

  /** The hexadecimal text of a byte string, two digits per byte, no separator. */
  function Hex(b: seq<byte>): (h: string)
    ensures |h| == 2 * |b|
    ensures forall k :: 0 <= k < |h| ==> IsHexDigit(h[k])
  {
    if b == [] then [] else [HexDigit(b[0] / 16), HexDigit(b[0] % 16)] + Hex(b[1..])
  }

  /** Reads hexadecimal text back into bytes, two digits per byte. */
  function Unhex(h: string): (b: seq<byte>)
    requires |h| % 2 == 0
    ensures |b| == |h| / 2
  {
    if h == [] then [] else [DigitValue(h[0]) * 16 + DigitValue(h[1])] + Unhex(h[2..])
  }

  /** The hex text of a serial number is exactly as long as two digits per byte and reads back to it. */
  lemma {:induction false} HexRoundTrip(b: seq<byte>)
    ensures |Hex(b)| == 2 * |b|
    ensures Unhex(Hex(b)) == b
  {
    if b != [] {
      var h := Hex(b);
      assert h[0] == HexDigit(b[0] / 16) && h[1] == HexDigit(b[0] % 16);
      assert h[2..] == Hex(b[1..]);
      HexRoundTrip(b[1..]);
      assert DigitValue(h[0]) * 16 + DigitValue(h[1]) == b[0] / 16 * 16 + b[0] % 16;
    }
  }

  /** The serial string of the token, from the outcome of the GET_SERIALNR control call. */
  function SerialString(code: int, value: seq<byte>): (s: string)
    ensures code < 0 ==> s == NO_SERIAL
    ensures code >= 0 ==> |s| == 2 * |value| && Unhex(s) == value
    ensures code >= 0 ==> forall k :: 0 <= k < |s| ==> IsHexDigit(s[k])
  {
    if code < 0 then NO_SERIAL
    else
      HexRoundTrip(value);
      Hex(value)
  }

  /** The private-key path: a path of one or two bytes is put under `3F 00`;
      any other path is kept as it is. */
  function RebasedKeyPath(path: seq<byte>): (p: seq<byte>)
    ensures 1 <= |path| <= 2 ==> |p| == |path| + 2 && p[..2] == MF && p[2..] == path
    ensures !(1 <= |path| <= 2) ==> p == path
  {
    if 1 <= |path| <= 2 then MF + path else path
  }

  /** The key reference of a slot: the first two identifier bytes, big-endian. */
  function KeyReference(id: seq<byte>): (r: int)
    ensures 0 <= r < 0x1_0000
    ensures r / 256 == ByteAt(id, 0) && r % 256 == ByteAt(id, 1)
  {
    ByteAt(id, 0) * 256 + ByteAt(id, 1)
  }

  /** The modulus length in bits for a modulus of `bytes` bytes. */
  function ModulusBits(bytes: nat): (bits: nat)
    ensures bits % 8 == 0 && bits / 8 == bytes
  {
    bytes * 8
  }

  /** A row of the static PIN table (`pindata`). */
  datatype PinData = PinData(
    id: string, pinLabel: string, path: seq<byte>, reference: int, pinType: int,
    maxLen: nat, minLen: nat, storedLen: nat, flags: int, triesLeft: int,
    padChar: byte, objFlags: int)

  /** The PIN table of the CAC token: one ASCII-numeric PIN "1" of 4 to 8 digits, padded with FF. */
  const PINS: seq<PinData> := [
    PinData("1", "PIN", [], 0x00, SC_PKCS15_PIN_TYPE_ASCII_NUMERIC, 8, 4, 8,
            SC_PKCS15_PIN_FLAG_NEEDS_PADDING + SC_PKCS15_PIN_FLAG_INITIALIZED,
            -1, 0xFF, SC_PKCS15_CO_FLAG_PRIVATE)
  ]

  /** A path as the card's control calls give it (at most SC_MAX_PATH_SIZE bytes). */
  type PathBytes = s: seq<byte> | |s| <= SC_MAX_PATH_SIZE

  /** What GET_NEXT_CERT_OBJECT reports for a slot: identifier, path and application label. */
  datatype ObjInfo = ObjInfo(id: seq<byte>, path: PathBytes, appLabel: string)

  /** An object of the PKCS#15 store. */
  datatype Obj =
    | PinObj(authId: string, objLabel: string, authType: int, reference: int, pinType: int,
             minLen: nat, storedLen: nat, maxLen: nat, padChar: byte, pinFlags: int,
             triesLeft: int, objFlags: int, path: seq<byte>)
    | DataObj(objLabel: string)
    | CertObj(id: seq<byte>, objLabel: string, der: seq<byte>, path: seq<byte>)
      /** `certUsage` is the X.509 usage handed to the usage mapper. */
    | PubKeyObj(id: seq<byte>, objLabel: string, keyRef: int, modulusBits: nat, certUsage: nat, native: bool)
    | PrivKeyObj(id: seq<byte>, objLabel: string, path: seq<byte>, keyRef: int, modulusBits: nat,
                 certUsage: nat, native: bool, objFlags: int, authId: string)

  /** The control calls the pass makes on the card, and the clearing of the token. */
  datatype Call =
    | GetSerial | GetAcaPath
    | InitGeneric | NextGeneric | FinalGeneric
    | InitCerts | NextCert | FinalCerts
    | Cleared

  /** What the collaborators report for one data object: the control call, its label and the store. */
  datatype GenericSlot = GenericSlot(next: int, appLabel: string, add: int)

  /** What the collaborators report for one certificate slot: the control call
      and its object information, the certificate parser (its code and whether
      a key came out), the store's answer to adding the certificate, the CN
      extraction, whether the label copy could be allocated, the SPKI encoder,
      the keyUsage extension, the key algorithm and modulus size, and the store's
      answers to adding the two keys. The certificate bytes themselves come
      from the card's files. */
  datatype CertSlot = CertSlot(
    next: int, info: ObjInfo,
    parse: int, hasKey: bool, certAdd: int,
    cn: Option<string>, allocOk: bool,
    spki: int, usage: Option<nat>, rsa: bool, modulusBytes: nat,
    pubAdd: int, privAdd: int)

  /** Everything the card and the PKCS#15 library report to the pass. */
  datatype CacEnv = CacEnv(
    serialCode: int, serialValue: seq<byte>,
    acaCode: int, acaPath: seq<byte>, pinAdd: int,
    genericInit: int, generic: seq<GenericSlot>, genericFinal: int,
    certInit: int, certs: seq<CertSlot>, certFinal: int,
    files: map<seq<byte>, seq<byte>>)

  /** The token as the pass sees it: token info strings, the object store and the calls made so far. */
  datatype Token = Token(tokenLabel: string, manufacturer: string, serial: string, objects: seq<Obj>, calls: seq<Call>)

  /** How many times `c` occurs in `calls`. */
  function Count(calls: seq<Call>, c: Call): nat {
    if calls == [] then 0
    else Count(calls[..|calls| - 1], c) + (if calls[|calls| - 1] == c then 1 else 0)
  }

  function Called(t: Token, c: Call): Token {
    t.(calls := t.calls + [c])
  }

  function Add(t: Token, o: Obj): Token {
    t.(objects := t.objects + [o])
  }

  /** `sc_pkcs15_card_clear` as far as this model sees it: the store is emptied. */
  function Clear(t: Token): Token {
    t.(objects := [], calls := t.calls + [Cleared])
  }

  /** The token strings set before any object is enumerated. */
  function Defaults(cardType: int, env: CacEnv, t: Token): (d: Token)
    ensures d.tokenLabel == CardName(cardType) && d.manufacturer == MANU_ID
    ensures env.serialCode < 0 ==> d.serial == NO_SERIAL
    ensures env.serialCode >= 0 ==> |d.serial| == 2 * |env.serialValue| && Unhex(d.serial) == env.serialValue
    ensures env.serialCode >= 0 ==> forall k :: 0 <= k < |d.serial| ==> IsHexDigit(d.serial[k])
    ensures d.objects == t.objects && d.calls == t.calls + [GetSerial]
  {
    Token(CardName(cardType), MANU_ID, SerialString(env.serialCode, env.serialValue), t.objects, t.calls + [GetSerial])
  }

  /** The PIN object for a table row, under the access path the card reported. */
  function PinObject(p: PinData, path: seq<byte>): Obj {
    PinObj(p.id, p.pinLabel, SC_PKCS15_PIN_AUTH_TYPE_PIN, p.reference, p.pinType, p.minLen, p.storedLen,
           p.maxLen, p.padChar, p.flags, -1, p.objFlags, path)
  }

  /** The certificate object of a slot: its bytes are cached, so its path is cleared. */
  function CertObject(info: ObjInfo, der: seq<byte>): Obj {
    CertObj(info.id, info.appLabel, der, [])
  }

  /** The X.509 usage of a slot, or the default when the extension cannot be read. */
  function CertUsage(c: CertSlot): (u: nat)
    ensures c.usage.None? ==> u == SC_X509_DATA_ENCIPHERMENT + SC_X509_DIGITAL_SIGNATURE
    ensures c.usage.Some? ==> u == c.usage.value
  {
    if c.usage.Some? then c.usage.value else DEFAULT_USAGE
  }

  function PubKey(c: CertSlot): Obj {
    PubKeyObj(c.info.id, c.info.appLabel, KeyReference(c.info.id), ModulusBits(c.modulusBytes), CertUsage(c), true)
  }

  function PrivKey(c: CertSlot): Obj {
    PrivKeyObj(c.info.id, c.info.appLabel, RebasedKeyPath(c.info.path), KeyReference(c.info.id),
               ModulusBits(c.modulusBytes), CertUsage(c), true, SC_PKCS15_CO_FLAG_PRIVATE, PINS[0].id)
  }

  /** How one enumeration phase ends: done, failed (the pass clears the token),
      or left at once without clearing. */
  datatype Phase =
    | Done(t: Token)
    | Fail(code: ErrorCode, t: Token)
    | Exit(code: ErrorCode, t: Token)

  /** What the pass returns, and the token it leaves. */
  datatype Run = Run(code: int, t: Token)

  /** The end of the pass after a phase: success, `goto err` (clear), or a direct return. */
  function Finish(p: Phase): (r: Run)
    ensures r.code == 0 <==> p.Done?
    ensures p.Done? ==> r.t == p.t
    ensures p.Fail? ==> r == Run(p.code, Clear(p.t))
    ensures p.Exit? ==> r == Run(p.code, p.t)
  {
    match p
    case Done(t) => Run(SC_SUCCESS, t)
    case Fail(c, t) => Run(c, Clear(t))
    case Exit(c, t) => Run(c, t)
  }

  /** The PIN loop from row `i` on: fetch the ACA path, then add the PIN object. */
  function PinsFrom(env: CacEnv, i: nat, t: Token): (p: Phase)
    requires i <= |PINS|
    ensures !p.Exit?
    decreases |PINS| - i
  {
    if i == |PINS| then Done(t)
    else
      var t1 := Called(t, GetAcaPath);
      if env.acaCode < 0 then Fail(env.acaCode, t1)
      else if env.pinAdd < 0 then Fail(env.pinAdd, t1)
      else PinsFrom(env, i + 1, Add(t1, PinObject(PINS[i], env.acaPath)))
  }

  /** The data-object loop from object `i` on. */
  function GenericFrom(env: CacEnv, i: nat, t: Token): (p: Phase)
    requires i <= |env.generic|
    ensures !p.Exit?
    decreases |env.generic| - i
  {
    if i == |env.generic| then Done(t)
    else
      var g := env.generic[i];
      var t1 := Called(t, NextGeneric);
      if g.next < 0 then Fail(g.next, t1)
      else if g.add < 0 then Fail(g.add, t1)
      else GenericFrom(env, i + 1, Add(t1, DataObj(g.appLabel)))
  }

  /** The data-object phase: init, one call per object, final. */
  function GenericPhase(env: CacEnv, t: Token): Phase {
    var t1 := Called(t, InitGeneric);
    if env.genericInit < 0 then Fail(env.genericInit, t1)
    else
      var p := GenericFrom(env, 0, t1);
      if !p.Done? then p
      else
        var t2 := Called(p.t, FinalGeneric);
        if env.genericFinal < 0 then Fail(env.genericFinal, t2) else Done(t2)
  }

  /** How one certificate slot ends: on to the next slot (with whether the
      token has been named), abort the pass, or leave it at once. */
  datatype Step =
    | Go(t: Token, named: bool)
    | Abort(code: ErrorCode, t: Token)
    | Leave(code: ErrorCode, t: Token)

  /** The slot's certificate is read, parsed with a key, and added to the store. */
  predicate CertAdded(c: CertSlot, files: map<seq<byte>, seq<byte>>) {
    c.next >= 0 && c.info.path in files && c.parse >= 0 && c.hasKey && c.certAdd >= 0
  }

  /** The slot names an unnamed token: its certificate is added and its CN extracted. */
  predicate Names(c: CertSlot, files: map<seq<byte>, seq<byte>>) {
    CertAdded(c, files) && c.cn.Some?
  }

  /** After its certificate is added, the slot ends the pass: the label copy
      cannot be allocated, the SPKI encoding fails, or an RSA key cannot be added. */
  predicate Fatal(c: CertSlot, named: bool) {
    (!named && c.cn.Some? && !c.allocOk) || c.spki < 0 || (c.rsa && (c.pubAdd < 0 || c.privAdd < 0))
  }

  /** The objects a slot that runs to its end adds: nothing when its certificate
      is not added, the certificate alone for a non-RSA key, else the
      certificate, the public key and the private key, in that order. */
  function Emitted(c: CertSlot, files: map<seq<byte>, seq<byte>>): (e: seq<Obj>)
    ensures |e| == (if !CertAdded(c, files) then 0 else if c.rsa then 3 else 1)
    ensures |e| >= 1 ==> e[0].CertObj? && e[0].id == c.info.id && e[0].der == files[c.info.path] && e[0].path == []
    ensures |e| == 3 ==> e[1].PubKeyObj? && e[2].PrivKeyObj?
    ensures |e| == 3 ==> e[1].id == e[2].id == c.info.id && e[1].objLabel == e[2].objLabel == c.info.appLabel
    ensures |e| == 3 ==> e[1].keyRef == e[2].keyRef == KeyReference(c.info.id)
    ensures |e| == 3 ==> e[1].modulusBits == e[2].modulusBits == 8 * c.modulusBytes
    ensures |e| == 3 ==> e[1].certUsage == e[2].certUsage == CertUsage(c) && e[1].native && e[2].native
    ensures |e| == 3 ==> e[2].path == RebasedKeyPath(c.info.path) && e[2].objFlags == SC_PKCS15_CO_FLAG_PRIVATE && e[2].authId == "1"
  {
    if !CertAdded(c, files) then []
    else if !c.rsa then [CertObject(c.info, files[c.info.path])]
    else [CertObject(c.info, files[c.info.path]), PubKey(c), PrivKey(c)]
  }

  /** One certificate slot. The certificate is read from the slot's own path
      (the rebased path is the private key's only); a read, parse or add
      failure skips the slot. */
  function SlotStep(c: CertSlot, files: map<seq<byte>, seq<byte>>, t: Token, named: bool): (s: Step)
    ensures s.t.calls == t.calls + [NextCert]
    ensures s.t.manufacturer == t.manufacturer && s.t.serial == t.serial
    ensures s.Leave? <==> c.next < 0
    ensures s.Leave? ==> s.code == c.next && s.t.objects == t.objects
    ensures s.Abort? <==> CertAdded(c, files) && Fatal(c, named)
    ensures s.Go? ==> s.t.objects == t.objects + Emitted(c, files)
    ensures s.Go? ==> (s.named <==> named || Names(c, files))
    ensures s.t.tokenLabel == if !named && Names(c, files) && c.allocOk then c.cn.value else t.tokenLabel
  {
    var t1 := Called(t, NextCert);
    if c.next < 0 then Leave(c.next, t1)
    else if !CertAdded(c, files) then Go(t1, named)
    else NameStep(c, Add(t1, CertObject(c.info, files[c.info.path])), named)
  }

  /** After the certificate is added: the first CN names the token. */
  function NameStep(c: CertSlot, t: Token, named: bool): (s: Step)
    ensures !s.Leave? && s.t.calls == t.calls
    ensures s.t.manufacturer == t.manufacturer && s.t.serial == t.serial
    ensures s.Abort? <==> Fatal(c, named)
    ensures s.Go? ==> s.t.objects == t.objects + (if c.rsa then [PubKey(c), PrivKey(c)] else [])
    ensures s.Go? ==> (s.named <==> named || c.cn.Some?)
    ensures s.t.tokenLabel == if !named && c.cn.Some? && c.allocOk then c.cn.value else t.tokenLabel
  {
    if !named && c.cn.Some? then
      if !c.allocOk then Abort(SC_ERROR_OUT_OF_MEMORY, t)
      else KeyStep(c, t.(tokenLabel := c.cn.value), true)
    else KeyStep(c, t, named)
  }

  /** The key objects of a slot: only an RSA key gets them, public key first. */
  function KeyStep(c: CertSlot, t: Token, named: bool): (s: Step)
    ensures !s.Leave? && s.t.calls == t.calls && s.t.tokenLabel == t.tokenLabel
    ensures s.t.manufacturer == t.manufacturer && s.t.serial == t.serial
    ensures s.Abort? <==> c.spki < 0 || (c.rsa && (c.pubAdd < 0 || c.privAdd < 0))
    ensures s.Go? ==> s.named == named
    ensures s.Go? ==> s.t.objects == t.objects + (if c.rsa then [PubKey(c), PrivKey(c)] else [])
  {
    if c.spki < 0 then Abort(c.spki, t)
    else if !c.rsa then Go(t, named)
    else if c.pubAdd < 0 then Abort(c.pubAdd, t)
    else if c.privAdd < 0 then Abort(c.privAdd, Add(t, PubKey(c)))
    else Go(Add(Add(t, PubKey(c)), PrivKey(c)), named)
  }

  /** The certificate loop from slot `i` on. */
  function CertLoop(certs: seq<CertSlot>, files: map<seq<byte>, seq<byte>>, i: nat, t: Token, named: bool): Step
    requires i <= |certs|
    decreases |certs| - i
  {
    if i == |certs| then Go(t, named)
    else
      var s := SlotStep(certs[i], files, t, named);
      if s.Go? then CertLoop(certs, files, i + 1, s.t, s.named) else s
  }

  /** The certificate phase: init, the slots, and the finalizer on every way
      out except a failing GET_NEXT_CERT_OBJECT. */
  function CertPhase(env: CacEnv, t: Token): Phase {
    var t1 := Called(t, InitCerts);
    if env.certInit < 0 then Fail(env.certInit, t1)
    else
      match CertLoop(env.certs, env.files, 0, t1, false)
      case Go(t2, _) =>
        var t3 := Called(t2, FinalCerts);
        if env.certFinal < 0 then Fail(env.certFinal, t3) else Done(t3)
      case Abort(code, t2) => Fail(code, Called(t2, FinalCerts))
      case Leave(code, t2) => Exit(code, t2)
  }

  /** The token once the defaults, the PINs and the data objects are done. */
  function Prelude(cardType: int, env: CacEnv, t: Token): Phase {
    var p1 := PinsFrom(env, 0, Defaults(cardType, env, t));
    if p1.Done? then GenericPhase(env, p1.t) else p1
  }

  /** `sc_pkcs15emu_cac_init`: defaults, PINs, data objects, certificates. */
  function Emulate(cardType: int, env: CacEnv, t: Token): (r: Run)
    ensures r.code <= 0
  {
    var p := Prelude(cardType, env, t);
    Finish(if p.Done? then CertPhase(env, p.t) else p)
  }

  /** `sc_pkcs15emu_cac_init_ex`: a card outside the CAC range is refused
      with WRONG_CARD and its token is left alone. */
  function InitEx(cardType: int, env: CacEnv, t: Token): (r: Run)
    ensures DetectCard(cardType) != SC_SUCCESS ==> r == Run(SC_ERROR_WRONG_CARD, t)
    ensures DetectCard(cardType) == SC_SUCCESS ==> r == Emulate(cardType, env, t)
    ensures r.code <= 0
  {
    if DetectCard(cardType) != SC_SUCCESS then Run(SC_ERROR_WRONG_CARD, t)
    else Emulate(cardType, env, t)
  }

  /** Recording one more call counts it once. */
  lemma CountCall(calls: seq<Call>, c: Call, x: Call)
    ensures Count(calls + [c], x) == Count(calls, x) + (if c == x then 1 else 0)
  {
    assert (calls + [c])[..|calls|] == calls;
  }

  /** The PIN loop only adds PIN objects and only asks for the ACA path. */
  lemma {:induction false} PinsKeep(env: CacEnv, i: nat, t: Token)
    requires i <= |PINS|
    ensures var p := PinsFrom(env, i, t);
      && t.objects <= p.t.objects
      && p.t.tokenLabel == t.tokenLabel && p.t.manufacturer == t.manufacturer && p.t.serial == t.serial
      && forall x :: x != GetAcaPath ==> Count(p.t.calls, x) == Count(t.calls, x)
    decreases |PINS| - i
  {
    if i < |PINS| {
      forall x { CountCall(t.calls, GetAcaPath, x); }
      if env.acaCode >= 0 && env.pinAdd >= 0 {
        PinsKeep(env, i + 1, Add(Called(t, GetAcaPath), PinObject(PINS[i], env.acaPath)));
      }
    }
  }

  /** The data-object loop adds one data object per object, in order, and
      only asks for the next object. */
  lemma {:induction false} GenericKeeps(env: CacEnv, i: nat, t: Token)
    requires i <= |env.generic|
    ensures var p := GenericFrom(env, i, t);
      && !p.Exit? && t.objects <= p.t.objects
      && (p.Done? ==> |p.t.objects| == |t.objects| + |env.generic| - i)
      && p.t.tokenLabel == t.tokenLabel && p.t.manufacturer == t.manufacturer && p.t.serial == t.serial
      && forall x :: x != NextGeneric ==> Count(p.t.calls, x) == Count(t.calls, x)
    decreases |env.generic| - i
  {
    if i < |env.generic| {
      forall x { CountCall(t.calls, NextGeneric, x); }
      var g := env.generic[i];
      if g.next >= 0 && g.add >= 0 {
        GenericKeeps(env, i + 1, Add(Called(t, NextGeneric), DataObj(g.appLabel)));
      }
    }
  }

  /** The data phase as a whole only makes data-object calls, and a data phase
      that succeeds has been finalized once. */
  lemma GenericPhaseKeeps(env: CacEnv, t: Token)
    ensures var p := GenericPhase(env, t);
      && t.objects <= p.t.objects
      && p.t.tokenLabel == t.tokenLabel && p.t.manufacturer == t.manufacturer && p.t.serial == t.serial
      && (forall x :: x != InitGeneric && x != NextGeneric && x != FinalGeneric ==> Count(p.t.calls, x) == Count(t.calls, x))
      && (p.Done? ==> Count(p.t.calls, FinalGeneric) == Count(t.calls, FinalGeneric) + 1)
  {
    var t1 := Called(t, InitGeneric);
    forall x { CountCall(t.calls, InitGeneric, x); }
    if env.genericInit >= 0 {
      GenericKeeps(env, 0, t1);
      var g := GenericFrom(env, 0, t1);
      if g.Done? {
        forall x { CountCall(g.t.calls, FinalGeneric, x); }
      }
    }
  }

  /** The defaults, PINs and data objects leave the certificate calls and the
      clearing uncalled; when they succeed the data phase has been finalized
      once, and the label is still the card's default name. */
  lemma PreludeKeeps(cardType: int, env: CacEnv, t: Token)
    ensures var p := Prelude(cardType, env, t);
      && !p.Exit? && t.objects <= p.t.objects
      && p.t.tokenLabel == CardName(cardType) && p.t.manufacturer == MANU_ID
      && p.t.serial == SerialString(env.serialCode, env.serialValue)
      && Count(p.t.calls, InitCerts) == Count(t.calls, InitCerts)
      && Count(p.t.calls, NextCert) == Count(t.calls, NextCert)
      && Count(p.t.calls, FinalCerts) == Count(t.calls, FinalCerts)
      && Count(p.t.calls, Cleared) == Count(t.calls, Cleared)
      && (p.Done? ==> Count(p.t.calls, FinalGeneric) == Count(t.calls, FinalGeneric) + 1)
  {
    var d := Defaults(cardType, env, t);
    CountCall(t.calls, GetSerial, InitCerts);
    CountCall(t.calls, GetSerial, NextCert);
    CountCall(t.calls, GetSerial, FinalCerts);
    CountCall(t.calls, GetSerial, Cleared);
    CountCall(t.calls, GetSerial, FinalGeneric);
    PinsKeep(env, 0, d);
    var p1 := PinsFrom(env, 0, d);
    if p1.Done? {
      GenericPhaseKeeps(env, p1.t);
    }
  }

  /** A failing data object (its control call or its addition to the store)
      ends the pass with that error and a cleared store, without the data
      finalizer and before any certificate call. */
  lemma GenericFailureClears(cardType: int, env: CacEnv, t: Token)
    requires PinsFrom(env, 0, Defaults(cardType, env, t)).Done?
    requires env.genericInit >= 0
    requires GenericFrom(env, 0, Called(PinsFrom(env, 0, Defaults(cardType, env, t)).t, InitGeneric)).Fail?
    ensures var r := Emulate(cardType, env, t);
      && r.code < 0 && r.t.objects == []
      && Count(r.t.calls, FinalGeneric) == Count(t.calls, FinalGeneric)
      && Count(r.t.calls, InitCerts) == Count(t.calls, InitCerts)
      && Count(r.t.calls, Cleared) == Count(t.calls, Cleared) + 1
  {
    PreludeKeeps(cardType, env, t);
    GenericFailurePrelude(cardType, env, t);
    var p := Prelude(cardType, env, t);
    assert Emulate(cardType, env, t) == Run(p.code, Clear(p.t));
    CountCall(p.t.calls, Cleared, FinalGeneric);
    CountCall(p.t.calls, Cleared, InitCerts);
    CountCall(p.t.calls, Cleared, Cleared);
  }

  /** A failing data object fails the prelude before the data finalizer. */
  lemma GenericFailurePrelude(cardType: int, env: CacEnv, t: Token)
    requires PinsFrom(env, 0, Defaults(cardType, env, t)).Done?
    requires env.genericInit >= 0
    requires GenericFrom(env, 0, Called(PinsFrom(env, 0, Defaults(cardType, env, t)).t, InitGeneric)).Fail?
    ensures var p := Prelude(cardType, env, t);
      p.Fail? && Count(p.t.calls, FinalGeneric) == Count(t.calls, FinalGeneric)
  {
    var d := Defaults(cardType, env, t);
    CountCall(t.calls, GetSerial, FinalGeneric);
    PinsKeep(env, 0, d);
    var p1 := PinsFrom(env, 0, d);
    CountCall(p1.t.calls, InitGeneric, FinalGeneric);
    GenericKeeps(env, 0, Called(p1.t, InitGeneric));
  }

  /** The CN of the first slot at or after `i` that names the token, or `dflt`. */
  function FirstName(certs: seq<CertSlot>, files: map<seq<byte>, seq<byte>>, i: nat, dflt: string): string
    requires i <= |certs|
    decreases |certs| - i
  {
    if i == |certs| then dflt
    else if Names(certs[i], files) then certs[i].cn.value
    else FirstName(certs, files, i + 1, dflt)
  }

  /** The objects of the slots from `i` on, each as `Emitted` gives them. */
  function AllEmitted(certs: seq<CertSlot>, files: map<seq<byte>, seq<byte>>, i: nat): seq<Obj>
    requires i <= |certs|
    decreases |certs| - i
  {
    if i == |certs| then [] else Emitted(certs[i], files) + AllEmitted(certs, files, i + 1)
  }

  /** The certificate loop only asks for the next slot, only appends to the
      store, and never renames a named token. */
  lemma {:induction false} CertLoopKeeps(certs: seq<CertSlot>, files: map<seq<byte>, seq<byte>>, i: nat, t: Token, named: bool)
    requires i <= |certs|
    ensures var s := CertLoop(certs, files, i, t, named);
      && t.objects <= s.t.objects
      && s.t.manufacturer == t.manufacturer && s.t.serial == t.serial
      && (forall x :: x != NextCert ==> Count(s.t.calls, x) == Count(t.calls, x))
      && (named ==> s.t.tokenLabel == t.tokenLabel)
    decreases |certs| - i
  {
    if i < |certs| {
      var s1 := SlotStep(certs[i], files, t, named);
      forall x { CountCall(t.calls, NextCert, x); }
      if s1.Go? {
        CertLoopKeeps(certs, files, i + 1, s1.t, s1.named);
      }
    }
  }

  /** A certificate loop that runs through every slot adds every slot's
      objects, in slot order. */
  lemma {:induction false} CertLoopObjects(certs: seq<CertSlot>, files: map<seq<byte>, seq<byte>>, i: nat, t: Token, named: bool)
    requires i <= |certs|
    requires CertLoop(certs, files, i, t, named).Go?
    ensures CertLoop(certs, files, i, t, named).t.objects == t.objects + AllEmitted(certs, files, i)
    decreases |certs| - i
  {
    if i < |certs| {
      var s1 := SlotStep(certs[i], files, t, named);
      CertLoopObjects(certs, files, i + 1, s1.t, s1.named);
      AppendAssoc(t.objects, Emitted(certs[i], files), AllEmitted(certs, files, i + 1));
    }
  }

  /** A certificate loop that runs through every slot leaves an unnamed token
      with the CN of the first slot that names it. */
  lemma {:induction false} CertLoopLabel(certs: seq<CertSlot>, files: map<seq<byte>, seq<byte>>, i: nat, t: Token)
    requires i <= |certs|
    requires CertLoop(certs, files, i, t, false).Go?
    ensures CertLoop(certs, files, i, t, false).t.tokenLabel == FirstName(certs, files, i, t.tokenLabel)
    decreases |certs| - i
  {
    if i < |certs| {
      var c := certs[i];
      var s1 := SlotStep(c, files, t, false);
      if Names(c, files) {
        CertLoopKeeps(certs, files, i + 1, s1.t, s1.named);
      } else {
        CertLoopLabel(certs, files, i + 1, s1.t);
      }
    }
  }

  /** A certificate loop that runs through every slot ends with the token named
      exactly when it was named before or some slot names it. */
  lemma {:induction false} CertLoopNamed(certs: seq<CertSlot>, files: map<seq<byte>, seq<byte>>, i: nat, t: Token, named: bool)
    requires i <= |certs|
    requires CertLoop(certs, files, i, t, named).Go?
    ensures CertLoop(certs, files, i, t, named).named <==> named || exists j :: i <= j < |certs| && Names(certs[j], files)
    decreases |certs| - i
  {
    if i < |certs| {
      var s1 := SlotStep(certs[i], files, t, named);
      CertLoopNamed(certs, files, i + 1, s1.t, s1.named);
      if Names(certs[i], files) {
        assert exists j :: i <= j < |certs| && Names(certs[j], files);
      }
    }
  }

  /** The certificate phase when its loop runs through every slot: the
      finalizer is called once, and the token is cleared exactly when the
      finalizer fails. */
  lemma CertPhaseRunsThrough(env: CacEnv, t: Token)
    requires env.certInit >= 0 && CertLoop(env.certs, env.files, 0, Called(t, InitCerts), false).Go?
    ensures var s := CertLoop(env.certs, env.files, 0, Called(t, InitCerts), false);
      var r := Finish(CertPhase(env, t));
      && Count(r.t.calls, FinalCerts) == Count(t.calls, FinalCerts) + 1
      && (env.certFinal >= 0 ==>
            r.code == 0 && r.t.objects == s.t.objects && Count(r.t.calls, Cleared) == Count(t.calls, Cleared))
      && (env.certFinal < 0 ==>
            r.code == env.certFinal && r.t.objects == [] && Count(r.t.calls, Cleared) == Count(t.calls, Cleared) + 1)
  {
    var t1 := Called(t, InitCerts);
    CountCall(t.calls, InitCerts, FinalCerts);
    CountCall(t.calls, InitCerts, Cleared);
    CertLoopKeeps(env.certs, env.files, 0, t1, false);
    var s := CertLoop(env.certs, env.files, 0, t1, false);
    CountCall(s.t.calls, FinalCerts, FinalCerts);
    CountCall(s.t.calls, FinalCerts, Cleared);
    CountCall(s.t.calls + [FinalCerts], Cleared, FinalCerts);
    CountCall(s.t.calls + [FinalCerts], Cleared, Cleared);
  }

  /** The certificate phase when a slot stops the loop: an aborting slot's
      error is returned after one finalizer call and the clearing; a failing
      GET_NEXT_CERT_OBJECT's error is returned at once, with neither. */
  lemma CertPhaseStops(env: CacEnv, t: Token)
    requires env.certInit >= 0 && !CertLoop(env.certs, env.files, 0, Called(t, InitCerts), false).Go?
    ensures var s := CertLoop(env.certs, env.files, 0, Called(t, InitCerts), false);
      var r := Finish(CertPhase(env, t));
      && r.code == s.code
      && (s.Abort? ==>
            r.t.objects == []
            && Count(r.t.calls, FinalCerts) == Count(t.calls, FinalCerts) + 1
            && Count(r.t.calls, Cleared) == Count(t.calls, Cleared) + 1)
      && (s.Leave? ==>
            r.t.objects == s.t.objects
            && Count(r.t.calls, FinalCerts) == Count(t.calls, FinalCerts)
            && Count(r.t.calls, Cleared) == Count(t.calls, Cleared))
  {
    var t1 := Called(t, InitCerts);
    CountCall(t.calls, InitCerts, FinalCerts);
    CountCall(t.calls, InitCerts, Cleared);
    CertLoopKeeps(env.certs, env.files, 0, t1, false);
    var s := CertLoop(env.certs, env.files, 0, t1, false);
    CountCall(s.t.calls, FinalCerts, FinalCerts);
    CountCall(s.t.calls, FinalCerts, Cleared);
    CountCall(s.t.calls + [FinalCerts], Cleared, FinalCerts);
    CountCall(s.t.calls + [FinalCerts], Cleared, Cleared);
  }

  /** How the whole pass ends once the certificate loop has been entered: a
      loop that runs through finalizes once and succeeds or clears; an aborting
      slot finalizes once and clears; a failing GET_NEXT_CERT_OBJECT returns its
      error at once, neither finalizing nor clearing. */
  lemma CertEndings(cardType: int, env: CacEnv, t: Token)
    requires Prelude(cardType, env, t).Done? && env.certInit >= 0
    ensures var s := CertLoop(env.certs, env.files, 0, Called(Prelude(cardType, env, t).t, InitCerts), false);
      var r := Emulate(cardType, env, t);
      && (s.Go? && env.certFinal >= 0 ==>
            r.code == 0 && r.t.objects == s.t.objects
            && Count(r.t.calls, FinalCerts) == Count(t.calls, FinalCerts) + 1
            && Count(r.t.calls, Cleared) == Count(t.calls, Cleared))
      && (s.Go? && env.certFinal < 0 ==>
            r.code == env.certFinal && r.t.objects == []
            && Count(r.t.calls, FinalCerts) == Count(t.calls, FinalCerts) + 1
            && Count(r.t.calls, Cleared) == Count(t.calls, Cleared) + 1)
      && (s.Abort? ==>
            r.code == s.code && r.t.objects == []
            && Count(r.t.calls, FinalCerts) == Count(t.calls, FinalCerts) + 1
            && Count(r.t.calls, Cleared) == Count(t.calls, Cleared) + 1)
      && (s.Leave? ==>
            r.code == s.code && r.t.objects == s.t.objects
            && Count(r.t.calls, FinalCerts) == Count(t.calls, FinalCerts)
            && Count(r.t.calls, Cleared) == Count(t.calls, Cleared))
  {
    var p := Prelude(cardType, env, t);
    PreludeKeeps(cardType, env, t);
    if CertLoop(env.certs, env.files, 0, Called(p.t, InitCerts), false).Go? {
      CertPhaseRunsThrough(env, p.t);
    } else {
      CertPhaseStops(env, p.t);
    }
  }

  /** A successful pass: the default strings are set, the certificate
      finalizer ran exactly once, nothing was cleared, every slot's objects
      were added in order, and the label is the CN of the first slot that names
      the token, or the card's default name when none does. */
  lemma EmulateSucceeds(cardType: int, env: CacEnv, t: Token)
    requires Emulate(cardType, env, t).code == 0
    ensures var r := Emulate(cardType, env, t);
      && r.t.tokenLabel == FirstName(env.certs, env.files, 0, CardName(cardType))
      && r.t.manufacturer == MANU_ID && r.t.serial == SerialString(env.serialCode, env.serialValue)
      && Count(r.t.calls, FinalGeneric) == Count(t.calls, FinalGeneric) + 1
      && Count(r.t.calls, FinalCerts) == Count(t.calls, FinalCerts) + 1
      && Count(r.t.calls, Cleared) == Count(t.calls, Cleared)
      && t.objects <= r.t.objects
      && exists k :: 0 <= k <= |r.t.objects| && r.t.objects == r.t.objects[..k] + AllEmitted(env.certs, env.files, 0)
  {
    var p := Prelude(cardType, env, t);
    PreludeKeeps(cardType, env, t);
    CertEndings(cardType, env, t);
    var t1 := Called(p.t, InitCerts);
    forall x { CountCall(p.t.calls, InitCerts, x); }
    CertLoopKeeps(env.certs, env.files, 0, t1, false);
    CertLoopObjects(env.certs, env.files, 0, t1, false);
    CertLoopLabel(env.certs, env.files, 0, t1);
    var r := Emulate(cardType, env, t);
    var k := |t1.objects|;
    assert r.t.objects == t1.objects + AllEmitted(env.certs, env.files, 0);
    assert r.t.objects[..k] == t1.objects;
  }
}

=== FILE: card_flex.dfy ===
/** The operations the Cryptoflex driver (card-flex.c) gives the card layer:
    ATR matching, initialisation, path selection, directory listing, and the
    delete and create commands. Each method is proved against a function
    that states what the call does to the card and what it returns. */
module CardFlex {
  import opened ScTypes
  import opened Transport
  import opened FlexAcl
  import opened FlexFile

  /** The ATRs of the cards the driver accepts, decoded from their hex form. */
  const FLEX_ATRS: seq<seq<byte>> := [
    [0x3B, 0x95, 0x94, 0x40, 0xFF, 0x63, 0x01, 0x01, 0x02, 0x01],          // Cryptoflex 16k
    [0x3B, 0x19, 0x14, 0x55, 0x90, 0x01, 0x02, 0x02, 0x00, 0x05, 0x04, 0xB0]
  ]

  /** `flex_match_card`: 1 exactly when the card's ATR equals, in length and
      bytes, one of the two ATRs; 0 otherwise. Nothing is modified. */
  method MatchCard(card: Card) returns (r: int)
    ensures r == 1 <==> card.atr == FLEX_ATRS[0] || card.atr == FLEX_ATRS[1]
    ensures r == 0 || r == 1
  {
    var found := -1;
    var i := 0;
    while i < |FLEX_ATRS|
      invariant 0 <= i <= |FLEX_ATRS|
      invariant found == -1
      invariant forall j :: 0 <= j < i ==> FLEX_ATRS[j] != card.atr
    {
      var defatr := FLEX_ATRS[i];
      if |defatr| == |card.atr| && defatr == card.atr {
        found := i;
        break;
      }
      i := i + 1;
    }
    if found == -1 {
      return 0;
    }
    return 1;
  }

  /** `flex_init`: the class byte of every later command is C0. */
  method Init(card: Card) returns (r: int)
    modifies card`cla
    ensures r == 0 && card.cla == 0xC0
  {
    card.cla := 0xC0;
    return 0;
  }

  // ---------------------------------------------------------------------
  // Selection

  /** The size of the response buffer a select with a descriptor provides. */
  const SC_MAX_APDU_BUFFER_SIZE: nat := 258

  /** A SELECT FILE command (INS A4). It asks for a response only when the
      caller wants the file's descriptor. */
  function SelectApdu(cla: byte, p1: byte, data: seq<byte>, wantFile: bool): Apdu {
    Apdu(cla, 0xA4, p1, 0, data, 0, if wantFile then SC_MAX_APDU_BUFFER_SIZE else 0)
  }

  /** An odd-length path or file identifier is refused before anything is sent. */
  predicate OddRejected(path: Path) {
    (path.kind == FullPath || path.kind == FileId) && |path.value| % 2 == 1
  }

  /** True when the first component of `v` is the MF `3F 00`. */
  predicate StartsAtMF(v: seq<byte>) {
    |v| >= 2 && v[0] == 0x3F && v[1] == 0x00
  }

  /** A full path other than the MF itself is walked component by component
      under the card lock. */
  predicate Traverses(path: Path) {
    path.kind == FullPath && |path.value| % 2 == 0 && |path.value| >= 2
    && (|path.value| != 2 || !StartsAtMF(path.value))
  }

  /** The 2-byte component of `v` at byte offset `i`. */
  function Component(v: seq<byte>, i: nat): (c: seq<byte>)
    requires i + 2 <= |v|
    ensures |c| == 2
  {
    [v[i], v[i + 1]]
  }

  /** The selects of the components of `v` from byte `from` on, except the last. */
  function WalkFrom(cla: byte, v: seq<byte>, from: nat): seq<Apdu>
    decreases |v| - from
  {
    if from + 2 >= |v| then []
    else [SelectApdu(cla, 0, Component(v, from), false)] + WalkFrom(cla, v, from + 2)
  }

  /** The j-th select of a walk is that of the component 2j bytes further on. */
  lemma {:induction false} WalkFromAt(cla: byte, v: seq<byte>, from: nat, j: nat)
    requires from + 2 * j + 2 < |v|
    ensures j < |WalkFrom(cla, v, from)|
    ensures WalkFrom(cla, v, from)[j] == SelectApdu(cla, 0, Component(v, from + 2 * j), false)
    decreases j
  {
    if j > 0 {
      WalkFromAt(cla, v, from + 2, j - 1);
    }
  }

  /** A walk over 2n bytes selects n - 1 components. */
  lemma {:induction false} WalkFromLength(cla: byte, v: seq<byte>, from: nat)
    requires from + 2 <= |v| && (|v| - from) % 2 == 0
    ensures from + 2 * |WalkFrom(cla, v, from)| + 2 == |v|
    decreases |v| - from
  {
    if from + 2 < |v| {
      WalkFromLength(cla, v, from + 2);
    }
  }

  /** The selects that lead to the last component of a traversed path: the
      MF unless the path starts there, then every inner component. */
  function Steps(cla: byte, v: seq<byte>): seq<Apdu>
    requires |v| >= 2
  {
    (if StartsAtMF(v) then [] else [SelectApdu(cla, 0, MF, false)]) + WalkFrom(cla, v, 0)
  }

  /** The walk's step for inner component j, which starts at byte `ptr`. */
  lemma StepAt(cla: byte, v: seq<byte>, j: nat, ptr: nat)
    requires |v| >= 2 && ptr == 2 * j && ptr + 2 < |v|
    ensures var pre := if StartsAtMF(v) then 0 else 1;
      pre + j < |Steps(cla, v)| && Steps(cla, v)[pre + j] == SelectApdu(cla, 0, Component(v, ptr), false)
  {
    WalkFromAt(cla, v, 0, j);
  }

  /** How many steps a walk over 2n bytes takes. */
  lemma StepsLength(cla: byte, v: seq<byte>)
    requires |v| % 2 == 0 && |v| >= 2
    ensures 2 * |Steps(cla, v)| + 2 == (if StartsAtMF(v) then 0 else 2) + |v|
  {
    WalkFromLength(cla, v, 0);
  }

  /** Every command a select sends when every reply is a success, in order. */
  function Plan(cla: byte, path: Path, wantFile: bool): (plan: seq<Apdu>)
    requires path.kind == FullPath ==> |path.value| != 0
    ensures |plan| >= 1
  {
    var v := path.value;
    if Traverses(path) then
      Steps(cla, v) + [SelectApdu(cla, 0, Component(v, |v| - 2), wantFile)]
    else
      [SelectApdu(cla, if path.kind == DfName then 0x04 else 0x00, v, wantFile)]
  }

  /** What the caller of a select gets from the reply to its last command:
      a transport error, else the status word's error, else success when no
      descriptor is wanted, else UNKNOWN REPLY for a short or FCI (6F) reply,
      else the parse of the reply into a cleared descriptor. */
  function FinalOutcome(reply: Reply, wantFile: bool, f: FileInfo): (p: Parsed)
    ensures !ReplyOk(reply) ==> p.code == ReplyError(reply) && p.file == f
    ensures !wantFile ==> p.code == ReplyError(reply) && p.file == f
    ensures wantFile && ReplyOk(reply) && |Truncate(reply.data, SC_MAX_APDU_BUFFER_SIZE)| < 14
            ==> p.code == SC_ERROR_UNKNOWN_REPLY && p.file == f
    ensures wantFile && ReplyOk(reply) && |reply.data| >= 14 && reply.data[0] == 0x6F
            ==> p.code == SC_ERROR_UNKNOWN_REPLY && p.file == f
    ensures wantFile && ReplyOk(reply) && |reply.data| >= 14 && reply.data[0] != 0x6F
            ==> p == ParseReply(Truncate(reply.data, SC_MAX_APDU_BUFFER_SIZE), BLANK)
  {
    var rec := Receive(reply, if wantFile then SC_MAX_APDU_BUFFER_SIZE else 0);
    if rec.code < 0 then Parsed(rec.code, f)
    else if SwToError(rec.sw1, rec.sw2) < 0 then Parsed(SwToError(rec.sw1, rec.sw2), f)
    else if !wantFile then Parsed(0, f)
    else if |rec.resp| < 14 || rec.resp[0] == 0x6F then Parsed(SC_ERROR_UNKNOWN_REPLY, f)
    else ParseReply(rec.resp, BLANK)
  }

  /** The outcome of a select: its return code, how many commands it sent and
      the descriptor afterwards. */
  datatype Selected = Selected(code: int, sent: nat, file: FileInfo)

  /** How a run of `n` select commands ends from command `i` on, when the card
      answers command j with the reply at position `at + j`: the first inner
      select that fails ends the run with its error; the reply to the last
      command is checked and parsed. */
  function Outcome(n: nat, script: seq<Reply>, at: nat, i: nat, wantFile: bool, f: FileInfo): (s: Selected)
    requires i < n
    decreases n - i
    ensures i < s.sent <= n
  {
    var reply := ReplyAt(script, at + i);
    if i == n - 1 then
      var p := FinalOutcome(reply, wantFile, f);
      Selected(p.code, n, p.file)
    else if !ReplyOk(reply) then Selected(ReplyError(reply), i + 1, f)
    else Outcome(n, script, at, i + 1, wantFile, f)
  }

  /** `flex_select_file` as a function of the card's class byte, what locking
      it returns, the path, whether a descriptor is wanted, the card's replies
      from position `at` on and the descriptor's value before the call. */
  function Select(cla: byte, lockResult: LockCode, path: Path, wantFile: bool,
                  script: seq<Reply>, at: nat, f: FileInfo): (s: Selected)
    requires path.kind == FullPath ==> |path.value| != 0
    ensures s.sent <= |Plan(cla, path, wantFile)|
  {
    if OddRejected(path) then Selected(SC_ERROR_INVALID_ARGUMENTS, 0, f)
    else if Traverses(path) && lockResult < 0 then Selected(lockResult, 0, f)
    else Outcome(|Plan(cla, path, wantFile)|, script, at, 0, wantFile, f)
  }

  /** The events of a select that sent `sent` commands of its plan: under the
      lock, the commands are bracketed by one Locked and one Unlocked event. */
  function SelectTrace(plan: seq<Apdu>, sent: nat, locked: bool): seq<Event>
    requires sent <= |plan|
  {
    if locked then [Locked] + SentFirst(plan, sent) + [Unlocked] else SentFirst(plan, sent)
  }

  /** Selecting a single 2-byte component without a descriptor sends one
      command and returns what its reply's transport and status word say. */
  lemma ComponentSelect(cla: byte, lockResult: LockCode, c: seq<byte>, script: seq<Reply>, at: nat)
    requires |c| == 2
    ensures Plan(cla, Path(FileId, c), false) == [SelectApdu(cla, 0, c, false)]
    ensures Select(cla, lockResult, Path(FileId, c), false, script, at, BLANK)
            == Selected(ReplyError(ReplyAt(script, at)), 1, BLANK)
  {
  }

  /** One step of the walk: the recursive select of the 2-byte component
      `c` without a descriptor, which is step `sent` of `steps`. */
  method SelectComponent(card: Card, c: seq<byte>, ghost steps: seq<Apdu>, ghost at: nat,
                         ghost trace0: seq<Event>, ghost sent: nat) returns (r: int)
    requires |c| == 2 && sent < |steps| && steps[sent] == SelectApdu(card.cla, 0, c, false)
    requires card.pos == at + sent && card.trace == trace0 + SentFirst(steps, sent)
    modifies card`pos, card`trace, card`lockDepth
    decreases 1
    ensures r == ReplyError(ReplyAt(card.script, at + sent))
    ensures card.pos == at + sent + 1 && card.trace == trace0 + SentFirst(steps, sent + 1)
    ensures card.lockDepth == old(card.lockDepth)
  {
    ComponentSelect(card.cla, card.lockResult, c, card.script, card.pos);
    r := SelectFile(card, Path(FileId, c), null);
    SentFirstNext(trace0, steps, sent);
  }

  /** The component walk of `flex_select_file` under the lock: selects the MF
      unless the path starts there, then each inner component, and stops at
      the first select that fails. `wantFile` and `f` only name the run whose
      outcome the walk settles. */
  method Traverse(card: Card, v: seq<byte>, ghost wantFile: bool, ghost f: FileInfo)
      returns (r: int, ghost sent: nat)
    requires Traverses(Path(FullPath, v))
    modifies card`pos, card`trace, card`lockDepth
    decreases 3
    ensures var n := |Steps(card.cla, v)| + 1;
      sent < n
      && (r == 0 ==> sent == n - 1
                     && Outcome(n, card.script, old(card.pos), 0, wantFile, f)
                        == Outcome(n, card.script, old(card.pos), sent, wantFile, f))
      && (r != 0 ==> Outcome(n, card.script, old(card.pos), 0, wantFile, f) == Selected(r, sent, f))
    ensures card.pos == old(card.pos) + sent
    ensures card.trace == old(card.trace) + SentFirst(Steps(card.cla, v), sent)
    ensures card.lockDepth == old(card.lockDepth)
  {
    ghost var steps := Steps(card.cla, v);
    StepsLength(card.cla, v);
    ghost var at, trace0 := card.pos, card.trace;
    if !StartsAtMF(v) {
      r := SelectComponent(card, MF, steps, at, trace0, 0);
      if r != 0 {
        return r, 1;
      }
    }
    r, sent := WalkInner(card, v, wantFile, f, at, trace0);
  }

  /** The loop of the walk over the inner components, once the MF is selected. */
  method WalkInner(card: Card, v: seq<byte>, ghost wantFile: bool, ghost f: FileInfo,
                   ghost at: nat, ghost trace0: seq<Event>) returns (r: int, ghost sent: nat)
    requires Traverses(Path(FullPath, v))
    requires var pre := if StartsAtMF(v) then 0 else 1;
      card.pos == at + pre && card.trace == trace0 + SentFirst(Steps(card.cla, v), pre)
      && Outcome(|Steps(card.cla, v)| + 1, card.script, at, 0, wantFile, f)
         == Outcome(|Steps(card.cla, v)| + 1, card.script, at, pre, wantFile, f)
    modifies card`pos, card`trace, card`lockDepth
    decreases 2
    ensures var n := |Steps(card.cla, v)| + 1;
      sent < n
      && (r == 0 ==> sent == n - 1
                     && Outcome(n, card.script, at, 0, wantFile, f) == Outcome(n, card.script, at, sent, wantFile, f))
      && (r != 0 ==> Outcome(n, card.script, at, 0, wantFile, f) == Selected(r, sent, f))
    ensures card.pos == at + sent
    ensures card.trace == trace0 + SentFirst(Steps(card.cla, v), sent)
    ensures card.lockDepth == old(card.lockDepth)
  {
    ghost var steps := Steps(card.cla, v);
    ghost var n := |steps| + 1;
    StepsLength(card.cla, v);
    var pathlen := |v|;
    var ptr := 0;
    sent := if StartsAtMF(v) then 0 else 1;
    ghost var pre := sent;
    while pathlen > 2
      invariant pathlen == |v| - ptr >= 2 && ptr == 2 * (sent - pre) && pre <= sent
      invariant card.pos == at + sent && card.trace == trace0 + SentFirst(steps, sent)
      invariant Outcome(n, card.script, at, 0, wantFile, f) == Outcome(n, card.script, at, sent, wantFile, f)
      invariant card.lockDepth == old(card.lockDepth)
    {
      StepAt(card.cla, v, sent - pre, ptr);
      r := SelectComponent(card, Component(v, ptr), steps, at, trace0, sent);
      OutcomeNext(n, card.script, at, sent, wantFile, f);
      if r != 0 {
        return r, sent + 1;
      }
      ptr := ptr + 2;
      pathlen := pathlen - 2;
      sent := sent + 1;
    }
    r := 0;
  }

  /** An inner select that fails ends the run with its error; one that
      succeeds leaves the run to the next command. */
  lemma OutcomeNext(n: nat, script: seq<Reply>, at: nat, i: nat, wantFile: bool, f: FileInfo)
    requires i + 1 < n
    ensures var e := ReplyError(ReplyAt(script, at + i));
      (e != 0 ==> Outcome(n, script, at, i, wantFile, f) == Selected(e, i + 1, f))
      && (e == 0 ==> Outcome(n, script, at, i, wantFile, f) == Outcome(n, script, at, i + 1, wantFile, f))
  {
  }

  /** The checks `flex_select_file` makes on the reply to its last command,
      and the parse of the descriptor. */
  method Conclude(rec: Received, ghost reply: Reply, file: File?) returns (r: int)
    requires rec == Receive(reply, if file != null then SC_MAX_APDU_BUFFER_SIZE else 0)
    modifies file
    ensures var p := FinalOutcome(reply, file != null, if file == null then BLANK else old(file.Info()));
      r == p.code && (file != null ==> file.Info() == p.file)
  {
    if rec.code < 0 {
      return rec.code;
    }
    r := SwToError(rec.sw1, rec.sw2);
    if r < 0 {
      return r;
    }
    if file == null {
      return 0;
    }
    if |rec.resp| < 14 {
      return SC_ERROR_UNKNOWN_REPLY;
    }
    if rec.resp[0] == 0x6F {
      return SC_ERROR_UNKNOWN_REPLY;
    }
    file.Reset();
    r := ParseFlexReply(rec.resp, file);
  }

  /** The last command of `flex_select_file`: transmit, release the lock if
      the walk took it, and check and parse the reply. */
  method Finish(card: Card, apdu: Apdu, locked: bool, file: File?) returns (r: int)
    requires apdu.resplen == if file != null then SC_MAX_APDU_BUFFER_SIZE else 0
    requires locked ==> card.lockDepth > 0
    modifies card`pos, card`trace, card`lockDepth, file
    ensures var p := FinalOutcome(ReplyAt(card.script, old(card.pos)), file != null,
                                  if file == null then BLANK else old(file.Info()));
      r == p.code && (file != null ==> file.Info() == p.file)
    ensures card.pos == old(card.pos) + 1
    ensures card.trace == old(card.trace) + [Sent(apdu)] + (if locked then [Unlocked] else [])
    ensures card.lockDepth == old(card.lockDepth) - (if locked then 1 else 0)
  {
    var rec := card.Transmit(apdu);
    if locked {
      card.Unlock();
    }
    r := Conclude(rec, ReplyAt(card.script, old(card.pos)), file);
  }

  /** `flex_select_file`: selects `path`, walking a full path component by
      component under the card lock, and parses the reply into `file` when
      one is given. */
  method SelectFile(card: Card, path: Path, file: File?) returns (r: int)
    requires path.kind == FullPath ==> |path.value| != 0
    modifies card`pos, card`trace, card`lockDepth, file
    decreases if path.kind == FullPath then 7 else 0
    ensures var s := Select(card.cla, card.lockResult, path, file != null, card.script, old(card.pos),
                            if file == null then BLANK else old(file.Info()));
      r == s.code && card.pos == old(card.pos) + s.sent
      && card.trace == old(card.trace) + SelectTrace(Plan(card.cla, path, file != null), s.sent,
                                                     Traverses(path) && card.lockResult == 0)
      && (file != null ==> file.Info() == s.file)
    ensures card.lockDepth == old(card.lockDepth)
  {
    match path.kind {
      case FullPath =>
        r := SelectPath(card, path, file);
      case DfName =>
        r := SelectLast(card, path, 0x04, file);
      case FileId =>
        if |path.value| % 2 != 0 {
          return SC_ERROR_INVALID_ARGUMENTS;
        }
        r := SelectLast(card, path, 0x00, file);
      case OtherKind =>
        r := SelectLast(card, path, 0x00, file);
    }
  }

  /** The path case of `flex_select_file`: an odd length is refused; the MF
      itself is selected directly; any other path is walked under the lock. */
  method SelectPath(card: Card, path: Path, file: File?) returns (r: int)
    requires path.kind == FullPath && |path.value| != 0
    modifies card`pos, card`trace, card`lockDepth, file
    decreases 6
    ensures var s := Select(card.cla, card.lockResult, path, file != null, card.script, old(card.pos),
                            if file == null then BLANK else old(file.Info()));
      r == s.code && card.pos == old(card.pos) + s.sent
      && card.trace == old(card.trace) + SelectTrace(Plan(card.cla, path, file != null), s.sent,
                                                     Traverses(path) && card.lockResult == 0)
      && (file != null ==> file.Info() == s.file)
    ensures card.lockDepth == old(card.lockDepth)
  {
    var v := path.value;
    var pathlen := |v|;
    if pathlen % 2 != 0 {
      return SC_ERROR_INVALID_ARGUMENTS;
    }
    if pathlen == 2 && StartsAtMF(v) {
      r := SelectLast(card, path, 0x00, file);
    } else {
      r := SelectWalked(card, path, file);
    }
  }

  /** A path that is walked: take the lock, or return what locking returned. */
  method SelectWalked(card: Card, path: Path, file: File?) returns (r: int)
    requires Traverses(path)
    modifies card`pos, card`trace, card`lockDepth, file
    decreases 5
    ensures var s := Select(card.cla, card.lockResult, path, file != null, card.script, old(card.pos),
                            if file == null then BLANK else old(file.Info()));
      r == s.code && card.pos == old(card.pos) + s.sent
      && card.trace == old(card.trace) + SelectTrace(Plan(card.cla, path, file != null), s.sent,
                                                     card.lockResult == 0)
      && (file != null ==> file.Info() == s.file)
    ensures card.lockDepth == old(card.lockDepth)
  {
    r := card.Lock();
    if r < 0 {
      return r;
    }
    r := SelectLocked(card, path, file);
  }

  /** A walked path once the lock is held: the walk, then the select of the
      last component; the lock is released on both ways out. */
  method SelectLocked(card: Card, path: Path, file: File?) returns (r: int)
    requires Traverses(path) && card.lockResult == 0 && card.lockDepth > 0
    modifies card`pos, card`trace, card`lockDepth, file
    decreases 4
    ensures var s := Select(card.cla, card.lockResult, path, file != null, card.script, old(card.pos),
                            if file == null then BLANK else old(file.Info()));
      r == s.code && card.pos == old(card.pos) + s.sent
      && card.trace == old(card.trace) + SentFirst(Plan(card.cla, path, file != null), s.sent) + [Unlocked]
      && (file != null ==> file.Info() == s.file)
    ensures card.lockDepth == old(card.lockDepth) - 1
  {
    var v := path.value;
    ghost var f0 := if file == null then BLANK else file.Info();
    ghost var t0, at := card.trace, card.pos;
    ghost var sent;
    r, sent := Traverse(card, v, file != null, f0);
    LockedSelect(card.cla, path, file != null, card.script, at, f0, r, sent);
    if r != 0 {
      card.Unlock();
      return r;
    }
    var apdu := SelectApdu(card.cla, 0, [v[|v| - 2], v[|v| - 1]], file != null);
    AppendAssoc(t0, SentFirst(Steps(card.cla, v), sent), [Sent(apdu)]);
    assert file != null ==> file.Info() == f0;
    r := Finish(card, apdu, true, file);
  }

  /** Once the lock is held, a walked path ends as its walk ends: with the
      error of the inner select that failed, after the commands sent so far,
      or with the reply to the last command after the whole walk succeeded
      and that command is sent. */
  lemma LockedSelect(cla: byte, path: Path, wantFile: bool, script: seq<Reply>, at: nat,
                     f: FileInfo, r: int, sent: nat)
    requires Traverses(path)
    requires var n := |Steps(cla, path.value)| + 1;
      sent < n
      && (r == 0 ==> sent == n - 1
                     && Outcome(n, script, at, 0, wantFile, f) == Outcome(n, script, at, sent, wantFile, f))
      && (r != 0 ==> Outcome(n, script, at, 0, wantFile, f) == Selected(r, sent, f))
    ensures var s := Select(cla, 0, path, wantFile, script, at, f);
      var v, plan := path.value, Plan(cla, path, wantFile);
      (r != 0 ==> s == Selected(r, sent, f) && SentFirst(plan, s.sent) == SentFirst(Steps(cla, v), sent))
      && (r == 0 ==> var p := FinalOutcome(ReplyAt(script, at + sent), wantFile, f);
                     s == Selected(p.code, sent + 1, p.file)
                     && SentFirst(plan, s.sent)
                        == SentFirst(Steps(cla, v), sent) + [Sent(SelectApdu(cla, 0, [v[|v| - 2], v[|v| - 1]], wantFile))])
  {
    var v := path.value;
    var steps := Steps(cla, v);
    var last := SelectApdu(cla, 0, Component(v, |v| - 2), wantFile);
    var plan := Plan(cla, path, wantFile);
    assert plan == steps + [last];
    SentFirstPrefix(steps, [last], sent);
    if r == 0 {
      assert SentFirst(plan, sent + 1) == SentFirst(plan, sent) + [Sent(plan[sent])];
    }
  }

  /** The one select of `flex_select_file` for a path that is not walked. */
  method SelectLast(card: Card, path: Path, p1: byte, file: File?) returns (r: int)
    requires path.kind == FullPath ==> |path.value| != 0
    requires !OddRejected(path) && !Traverses(path)
    requires p1 == if path.kind == DfName then 0x04 else 0x00
    modifies card`pos, card`trace, card`lockDepth, file
    ensures var s := Select(card.cla, card.lockResult, path, file != null, card.script, old(card.pos),
                            if file == null then BLANK else old(file.Info()));
      r == s.code && card.pos == old(card.pos) + s.sent
      && card.trace == old(card.trace) + SelectTrace(Plan(card.cla, path, file != null), s.sent, false)
      && (file != null ==> file.Info() == s.file)
    ensures card.lockDepth == old(card.lockDepth)
  {
    ghost var f0 := if file == null then BLANK else file.Info();
    ghost var plan := Plan(card.cla, path, file != null);
    var apdu := SelectApdu(card.cla, p1, path.value, file != null);
    assert plan == [apdu] && SentFirst(plan, 1) == [Sent(apdu)];
    r := Finish(card, apdu, false, file);
  }

  // Properties of selection

  /** A run ends at the first inner select that fails, or with the reply to
      its last command: every reply before the one that ends it succeeded; the
      run reaches its last command exactly when all earlier replies succeed;
      a run cut short returns the failing reply's error and leaves the
      descriptor alone; a complete run returns what its last reply says. */
  lemma {:induction false} OutcomeEnds(n: nat, script: seq<Reply>, at: nat, i: nat, wantFile: bool, f: FileInfo)
    requires i < n
    decreases n - i
    ensures var s := Outcome(n, script, at, i, wantFile, f);
      (forall j :: at + i <= j < at + s.sent - 1 ==> ReplyOk(ReplyAt(script, j)))
      && (s.sent == n <==> forall j :: at + i <= j < at + n - 1 ==> ReplyOk(ReplyAt(script, j)))
      && (s.sent < n ==> s.code == ReplyError(ReplyAt(script, at + s.sent - 1)) < 0 && s.file == f)
      && (s.sent == n ==> var p := FinalOutcome(ReplyAt(script, at + n - 1), wantFile, f);
                          s.code == p.code && s.file == p.file)
  {
    if i < n - 1 && ReplyOk(ReplyAt(script, at + i)) {
      OutcomeEnds(n, script, at, i + 1, wantFile, f);
    }
  }

  /** The argument checks and the lock: an odd-length path or file identifier
      is refused with nothing sent and no lock taken; a failed lock is returned
      with nothing sent; a path that is not walked is never locked. */
  lemma SelectGuards(cla: byte, lockResult: LockCode, path: Path, wantFile: bool,
                     script: seq<Reply>, at: nat, f: FileInfo)
    requires path.kind == FullPath ==> |path.value| != 0
    ensures OddRejected(path) ==>
              !Traverses(path)
              && Select(cla, lockResult, path, wantFile, script, at, f) == Selected(SC_ERROR_INVALID_ARGUMENTS, 0, f)
    ensures Traverses(path) && lockResult < 0 ==>
              Select(cla, lockResult, path, wantFile, script, at, f) == Selected(lockResult, 0, f)
    ensures !OddRejected(path) && (Traverses(path) ==> lockResult == 0) ==>
              Select(cla, lockResult, path, wantFile, script, at, f).sent > 0
  {
  }

  /** The commands of a select: every one is a SELECT FILE (INS A4, P2 0) in
      the card's class; only the last asks for a response, and only when a
      descriptor is wanted; a DF name is selected with P1 04 in one command,
      any other single select with P1 00. */
  lemma PlanCommands(cla: byte, path: Path, wantFile: bool)
    requires path.kind == FullPath ==> |path.value| != 0
    ensures var plan := Plan(cla, path, wantFile);
      (forall j :: 0 <= j < |plan| ==> plan[j].cla == cla && plan[j].ins == 0xA4 && plan[j].p2 == 0)
      && (forall j :: 0 <= j < |plan| - 1 ==> plan[j].resplen == 0 && plan[j].p1 == 0)
      && plan[|plan| - 1].resplen == (if wantFile then SC_MAX_APDU_BUFFER_SIZE else 0)
      && (path.kind == DfName ==> plan == [Apdu(cla, 0xA4, 0x04, 0, path.value, 0, plan[0].resplen)])
      && (path.kind != DfName ==> plan[|plan| - 1].p1 == 0)
  {
    var plan := Plan(cla, path, wantFile);
    if Traverses(path) {
      var v := path.value;
      var pre := if StartsAtMF(v) then 0 else 1;
      StepsLength(cla, v);
      forall j | 0 <= j < |plan| - 1
        ensures plan[j] == SelectApdu(cla, 0, plan[j].data, false)
      {
        if j >= pre {
          StepAt(cla, v, j - pre, 2 * (j - pre));
        }
      }
    }
  }

  /** The walk of a path other than the MF: the MF first unless the path
      starts there, then each component but the last from left to right, then
      the last component in the final command, which alone may ask for the
      descriptor. A path of L bytes takes L/2 selects when it starts at the MF
      and L/2 + 1 otherwise. */
  lemma PlanWalksPath(cla: byte, path: Path, wantFile: bool)
    requires Traverses(path)
    ensures var v, plan := path.value, Plan(cla, path, wantFile);
      var pre := if StartsAtMF(v) then 0 else 1;
      2 * |plan| == |v| + 2 * pre
      && (pre == 1 ==> plan[0] == SelectApdu(cla, 0, MF, false))
      && (forall j :: 0 <= j && 2 * j + 2 < |v| ==> plan[pre + j] == SelectApdu(cla, 0, Component(v, 2 * j), false))
      && plan[|plan| - 1] == SelectApdu(cla, 0, Component(v, |v| - 2), wantFile)
  {
    var v := path.value;
    StepsLength(cla, v);
    forall j | 0 <= j && 2 * j + 2 < |v|
      ensures Plan(cla, path, wantFile)[(if StartsAtMF(v) then 0 else 1) + j]
              == SelectApdu(cla, 0, Component(v, 2 * j), false)
    {
      StepAt(cla, v, j, 2 * j);
    }
  }

  /** The lock is taken at most once and released exactly once: under the
      lock the events open with the one Locked event and close with the one
      Unlocked event, and no other event touches the lock. */
  lemma SelectTraceLocks(plan: seq<Apdu>, sent: nat, locked: bool)
    requires sent <= |plan|
    ensures var ev := SelectTrace(plan, sent, locked);
      (locked ==> |ev| == sent + 2 && ev[0] == Locked && ev[|ev| - 1] == Unlocked)
      && (!locked ==> |ev| == sent)
      && (forall k :: 0 <= k < |ev| && ev[k] == Locked ==> locked && k == 0)
      && (forall k :: 0 <= k < |ev| && ev[k] == Unlocked ==> locked && k == |ev| - 1)
  {
    var ev := SelectTrace(plan, sent, locked);
    var d := if locked then 1 else 0;
    forall k | 0 <= k < |ev| && (k != 0 || !locked) && (k != |ev| - 1 || !locked)
      ensures ev[k].Sent?
    {
      SentFirstAt(plan, sent, k - d);
    }
  }

  // ---------------------------------------------------------------------
  // Directory listing

  /** The LIST FILES command (CLA F0, INS A8): each reply names one file in
      bytes 2 and 3 of a 4-byte response. */
  const LIST_APDU: Apdu := Apdu(0xF0, 0xA8, 0, 0, [], 4, 4)

  /** What one reply to LIST FILES gives. */
  datatype Page = More(id: seq<byte>) | Done | Failed(code: int)

  /** How `flex_list_files` reads one reply: status word 6A82 ends the listing;
      a transport error or any other failing status word is returned as its
      error; a success whose response is not 4 bytes long is an illegal
      response; otherwise bytes 2 and 3 name one more file. */
  function ListPage(reply: Reply): (pg: Page)
    ensures pg.Failed? ==> pg.code < 0
    ensures pg == Done <==> reply.Response? && reply.sw1 == 0x6A && reply.sw2 == 0x82
    ensures pg.More? <==> ReplyOk(reply) && |reply.data| >= 4
    ensures pg.More? ==> pg.id == [reply.data[2], reply.data[3]]
    ensures ReplyOk(reply) && |reply.data| < 4 ==> pg == Failed(SC_ERROR_ILLEGAL_RESPONSE)
    ensures !ReplyOk(reply) && pg != Done ==> pg == Failed(ReplyError(reply))
  {
    match reply
    case TransportError(c) => Failed(c)
    case Response(d, sw1, sw2) =>
      if sw1 == 0x6A && sw2 == 0x82 then Done
      else if SwToError(sw1, sw2) != 0 then Failed(SwToError(sw1, sw2))
      else if |Truncate(d, 4)| != 4 then Failed(SC_ERROR_ILLEGAL_RESPONSE)
      else More([d[2], d[3]])
  }

  /** The result of a listing: its error (0 when none), the file identifiers
      written to the buffer, and how many commands it sent. */
  datatype Listing = Listing(code: int, names: seq<byte>, sent: nat)

  /** The rest of a listing that has written `names` and sent `sent`
      commands, with `room` bytes left and the next reply at position `at`:
      it asks for another page only while more than `stop` bytes are left. */
  function ListFrom(script: seq<Reply>, at: nat, room: nat, stop: nat, names: seq<byte>, sent: nat): (l: Listing)
    requires stop >= 1
    decreases room
    ensures l.code <= 0 && |names| <= |l.names| <= |names| + room && sent <= l.sent
  {
    if room <= stop then Listing(0, names, sent)
    else
      match ListPage(ReplyAt(script, at))
      case Failed(c) => Listing(c, names, sent + 1)
      case Done => Listing(0, names, sent + 1)
      case More(id) => ListFrom(script, at + 1, room - 2, stop, names + id, sent + 1)
  }

  /** A listing into `room` bytes that reads replies from position `at` on. */
  function ListRun(script: seq<Reply>, at: nat, room: nat, stop: nat): Listing
    requires stop >= 1
  {
    ListFrom(script, at, room, stop, [], 0)
  }

  /** The events of `n` LIST FILES commands. */
  function ListEvents(n: nat): (ev: seq<Event>)
    ensures |ev| == n
  {
    if n == 0 then [] else ListEvents(n - 1) + [Sent(LIST_APDU)]
  }

  /** `flex_list_files`: reads pages into `buf` while more than two of its
      `buflen` bytes are left, and returns how many bytes it wrote, or the
      error that stopped it; bytes written before an error stay written. */
  method ListFiles(card: Card, buf: array<byte>, buflen: nat) returns (r: int)
    requires buflen <= buf.Length
    modifies buf, card`pos, card`trace
    ensures var l := ListRun(card.script, old(card.pos), buflen, 2);
      r == (if l.code < 0 then l.code else |l.names|)
      && (forall i :: 0 <= i < |l.names| ==> buf[i] == l.names[i])
      && (forall i :: |l.names| <= i < buf.Length ==> buf[i] == old(buf[i]))
      && card.pos == old(card.pos) + l.sent && card.trace == old(card.trace) + ListEvents(l.sent)
  {
    ghost var at: nat, t0 := card.pos, card.trace;
    ghost var pages: nat := 0;
    ghost var names: seq<byte> := [];
    var count: nat := 0;
    var room: nat := buflen;
    while room > 2
      invariant count == 2 * pages == |names| && count + room == buflen
      invariant card.pos == at + pages && card.trace == t0 + ListEvents(pages)
      invariant buf[..count] == names && buf[count..] == old(buf[count..])
      invariant ListRun(card.script, at, buflen, 2) == ListFrom(card.script, at + pages, room, 2, names, pages)
    {
      var pg := ReadPage(card);
      ListEventsNext(t0, pages);
      if pg.Failed? {
        return pg.code;
      }
      if pg.Done? {
        break;
      }
      CopyId(buf, count, pg.id);
      names := names + pg.id;
      count, room, pages := count + 2, room - 2, pages + 1;
    }
    return count;
  }

  /** The `memcpy` of a 2-byte identifier into `buf` at `count`. */
  method CopyId(buf: array<byte>, count: nat, id: seq<byte>)
    requires |id| == 2 && count + 2 <= buf.Length
    modifies buf
    ensures buf[..count + 2] == old(buf[..count]) + id
    ensures buf[count + 2..] == old(buf[count + 2..])
  {
    buf[count] := id[0];
    buf[count + 1] := id[1];
  }

  /** One LIST FILES command of `flex_list_files` and the checks on its reply. */
  method ReadPage(card: Card) returns (pg: Page)
    modifies card`pos, card`trace
    ensures pg == ListPage(ReplyAt(card.script, old(card.pos)))
    ensures card.pos == old(card.pos) + 1 && card.trace == old(card.trace) + [Sent(LIST_APDU)]
  {
    var rec := card.Transmit(LIST_APDU);
    if rec.code != 0 {
      return Failed(rec.code);
    }
    if rec.sw1 == 0x6A && rec.sw2 == 0x82 {
      return Done;
    }
    var r := SwToError(rec.sw1, rec.sw2);
    if r != 0 {
      return Failed(r);
    }
    if |rec.resp| != 4 {
      return Failed(SC_ERROR_ILLEGAL_RESPONSE);
    }
    return More([rec.resp[2], rec.resp[3]]);
  }

  /** One more LIST FILES command appends its event. */
  lemma ListEventsNext(t: seq<Event>, n: nat)
    ensures t + ListEvents(n) + [Sent(LIST_APDU)] == t + ListEvents(n + 1)
  {
  }

  // Properties of listing

  /** A listing keeps what was written before it and adds whole 2-byte
      identifiers; with the test as written (`stop` 2) a non-empty buffer is
      never filled to the last byte. */
  lemma {:induction false} ListKeeps(script: seq<Reply>, at: nat, room: nat, stop: nat, names: seq<byte>, sent: nat)
    requires stop >= 1
    decreases room
    ensures var l := ListFrom(script, at, room, stop, names, sent);
      (|l.names| - |names|) % 2 == 0
      && (forall i :: 0 <= i < |names| ==> l.names[i] == names[i])
      && (stop >= 2 && room > 0 ==> |l.names| < |names| + room)
  {
    if room > stop && ListPage(ReplyAt(script, at)).More? {
      var id := ListPage(ReplyAt(script, at)).id;
      ListKeeps(script, at + 1, room - 2, stop, names + id, sent + 1);
    }
  }

  /** Page k of a listing is bytes 2 and 3 of the reply to its k-th command. */
  lemma {:induction false} ListPagesRead(script: seq<Reply>, at: nat, room: nat, stop: nat, names: seq<byte>, sent: nat)
    requires stop >= 1
    decreases room
    ensures var l := ListFrom(script, at, room, stop, names, sent);
      forall k :: 0 <= k && |names| + 2 * k + 1 < |l.names| ==>
        var reply := ReplyAt(script, at + k);
        reply.Response? && |reply.data| >= 4
        && l.names[|names| + 2 * k] == reply.data[2] && l.names[|names| + 2 * k + 1] == reply.data[3]
  {
    if room > stop && ListPage(ReplyAt(script, at)).More? {
      var id := ListPage(ReplyAt(script, at)).id;
      var l := ListFrom(script, at, room, stop, names, sent);
      ListPagesRead(script, at + 1, room - 2, stop, names + id, sent + 1);
      ListKeeps(script, at + 1, room - 2, stop, names + id, sent + 1);
      forall k | 0 <= k && |names| + 2 * k + 1 < |l.names|
        ensures var reply := ReplyAt(script, at + k);
          reply.Response? && |reply.data| >= 4
          && l.names[|names| + 2 * k] == reply.data[2] && l.names[|names| + 2 * k + 1] == reply.data[3]
      {
        if k == 0 {
          assert l.names[|names|] == (names + id)[|names|];
          assert l.names[|names| + 1] == (names + id)[|names| + 1];
        } else {
          assert at + 1 + (k - 1) == at + k;
          assert |names + id| + 2 * (k - 1) == |names| + 2 * k;
        }
      }
    }
  }

  /** Why a listing stops: every command but the last it sent got a page; a
      listing that fails returns the error of the last reply; one that
      succeeds ran out of room or got status word 6A82. */
  lemma {:induction false} ListEnds(script: seq<Reply>, at: nat, room: nat, stop: nat, names: seq<byte>, sent: nat)
    requires stop >= 1
    decreases room
    ensures var l := ListFrom(script, at, room, stop, names, sent);
      (forall j :: at <= j < at + (l.sent - sent) - 1 ==> ListPage(ReplyAt(script, j)).More?)
      && (l.code < 0 ==> l.sent > sent && ListPage(ReplyAt(script, at + (l.sent - sent) - 1)) == Failed(l.code))
      && (l.code == 0 ==> |names| + room - |l.names| <= stop
                          || (l.sent > sent && ListPage(ReplyAt(script, at + (l.sent - sent) - 1)) == Done))
  {
    if room > stop && ListPage(ReplyAt(script, at)).More? {
      var id := ListPage(ReplyAt(script, at)).id;
      ListEnds(script, at + 1, room - 2, stop, names + id, sent + 1);
    }
  }

  /** What `flex_list_files` returns when it succeeds: an even count, smaller
      than the buffer whenever the buffer is not empty, of identifiers each
      read from bytes 2 and 3 of one reply. */
  lemma ListCount(script: seq<Reply>, at: nat, buflen: nat)
    ensures var l := ListRun(script, at, buflen, 2);
      |l.names| % 2 == 0 && (buflen > 0 ==> |l.names| < buflen)
      && forall k :: 0 <= k && 2 * k + 1 < |l.names| ==>
           ReplyAt(script, at + k).Response? && |ReplyAt(script, at + k).data| >= 4
           && l.names[2 * k] == ReplyAt(script, at + k).data[2]
           && l.names[2 * k + 1] == ReplyAt(script, at + k).data[3]
  {
    ListKeeps(script, at, buflen, 2, [], 0);
    ListPagesRead(script, at, buflen, 2, [], 0);
  }

  /** A card that answers every command with a page. */
  ghost predicate AllPages(script: seq<Reply>, at: nat, room: nat) {
    forall j :: at <= j && 2 * (j - at) + 2 <= room ==> ListPage(ReplyAt(script, j)).More?
  }

  /** As written, even a card that has a page for every command leaves the
      last two bytes of an even buffer unused. */
  lemma {:induction false} ListLeavesTwo(script: seq<Reply>, at: nat, room: nat, names: seq<byte>, sent: nat)
    requires AllPages(script, at, room) && room % 2 == 0 && room >= 2
    decreases room
    ensures |ListFrom(script, at, room, 2, names, sent).names| == |names| + room - 2
  {
    if room > 2 {
      assert ListPage(ReplyAt(script, at)).More?;
      var id := ListPage(ReplyAt(script, at)).id;
      assert AllPages(script, at + 1, room - 2) by {
        forall j | at + 1 <= j && 2 * (j - at - 1) + 2 <= room - 2
          ensures ListPage(ReplyAt(script, j)).More?
        {
          assert 2 * (j - at) + 2 <= room;
        }
      }
      ListLeavesTwo(script, at + 1, room - 2, names + id, sent + 1);
    }
  }

  /** With the loop test the buffer evidently calls for (more than one byte
      left), a card that has a page for every command fills the buffer up to
      at most one byte, and the listing succeeds. */
  lemma {:induction false} ListFillsBuffer(script: seq<Reply>, at: nat, room: nat, names: seq<byte>, sent: nat)
    requires AllPages(script, at, room)
    decreases room
    ensures var l := ListFrom(script, at, room, 1, names, sent);
      l.code == 0 && |names| + room <= |l.names| + 1
  {
    if room > 1 {
      assert ListPage(ReplyAt(script, at)).More?;
      var id := ListPage(ReplyAt(script, at)).id;
      assert AllPages(script, at + 1, room - 2) by {
        forall j | at + 1 <= j && 2 * (j - at - 1) + 2 <= room - 2
          ensures ListPage(ReplyAt(script, j)).More?
        {
          assert 2 * (j - at) + 2 <= room;
        }
      }
      ListFillsBuffer(script, at + 1, room - 2, names + id, sent + 1);
    }
  }

  /** Three pages: identifiers 1001, 1002 and 1003. */
  const THREE_PAGES: seq<Reply> := [
    Response([0x00, 0x00, 0x10, 0x01], 0x90, 0x00),
    Response([0x00, 0x00, 0x10, 0x02], 0x90, 0x00),
    Response([0x00, 0x00, 0x10, 0x03], 0x90, 0x00)
  ]

  /** A 6-byte buffer and a card with three files: as written the listing
      returns 4 and never asks for the third page; with the evident test it
      returns all 6 bytes. */
  lemma ListStopsEarly()
    ensures ListRun(THREE_PAGES, 0, 6, 2) == Listing(0, [0x10, 0x01, 0x10, 0x02], 2)
    ensures ListRun(THREE_PAGES, 0, 6, 1) == Listing(0, [0x10, 0x01, 0x10, 0x02, 0x10, 0x03], 3)
  {
    assert ListPage(THREE_PAGES[0]) == More([0x10, 0x01]);
    assert ListPage(THREE_PAGES[1]) == More([0x10, 0x02]);
    assert ListPage(THREE_PAGES[2]) == More([0x10, 0x03]);
  }

  // ---------------------------------------------------------------------
  // Delete and create

  /** The guard of `flex_delete_file` as written: a path is refused only when
      it is neither a file identifier nor 2 bytes long. */
  predicate DeleteRefused(path: Path) {
    path.kind != FileId && |path.value| != 2
  }

  /** The DELETE FILE command (CLA F0, INS E4) with the first two bytes of
      the path's value buffer. */
  function DeleteApdu(path: Path): Apdu {
    Apdu(0xF0, 0xE4, 0, 0, [ByteAt(path.value, 0), ByteAt(path.value, 1)], 0, 0)
  }

  /** `flex_delete_file`: a refused path returns INVALID ARGUMENTS with
      nothing sent; otherwise one DELETE FILE is sent and the reply's
      transport or status-word error is returned. */
  method DeleteFile(card: Card, path: Path) returns (r: int)
    modifies card`pos, card`trace
    ensures DeleteRefused(path) ==>
              r == SC_ERROR_INVALID_ARGUMENTS && card.pos == old(card.pos) && card.trace == old(card.trace)
    ensures !DeleteRefused(path) ==>
              r == ReplyError(ReplyAt(card.script, old(card.pos)))
              && card.pos == old(card.pos) + 1 && card.trace == old(card.trace) + [Sent(DeleteApdu(path))]
  {
    if path.kind != FileId && |path.value| != 2 {
      return SC_ERROR_INVALID_ARGUMENTS;
    }
    var sbuf := [ByteAt(path.value, 0), ByteAt(path.value, 1)];
    r := Transact(card, Apdu(0xF0, 0xE4, 0, 0, sbuf, 0, 0));
  }

  /** Sends a command that expects no response data and returns the
      transmit error, or else the error its status word maps to. */
  method Transact(card: Card, apdu: Apdu) returns (r: int)
    requires apdu.resplen == 0
    modifies card`pos, card`trace
    ensures r == ReplyError(ReplyAt(card.script, old(card.pos)))
    ensures card.pos == old(card.pos) + 1 && card.trace == old(card.trace) + [Sent(apdu)]
  {
    var rec := card.Transmit(apdu);
    if rec.code != 0 {
      return rec.code;
    }
    r := SwToError(rec.sw1, rec.sw2);
  }

  /** The guard the error message asks for: only a 2-byte file identifier
      may be deleted. */
  predicate DeleteAccepted(path: Path) {
    path.kind == FileId && |path.value| == 2
  }

  /** With the intended guard, a deleted path's identifier is exactly the
      two bytes sent. The two guards disagree on exactly two kinds of path,
      both of which the guard as written lets through: a file identifier that
      is not 2 bytes long, and a 2-byte path that is not a file identifier. */
  lemma DeleteIntended(path: Path)
    ensures DeleteAccepted(path) ==> !DeleteRefused(path) && DeleteApdu(path).data == path.value
    ensures (!DeleteRefused(path) && !DeleteAccepted(path))
            <==> (path.kind == FileId && |path.value| != 2) || (path.kind != FileId && |path.value| == 2)
  {
  }

  /** `flex_delete_file` with the guard its error message asks for: anything
      but a 2-byte file identifier is refused with INVALID ARGUMENTS and
      nothing sent; a 2-byte file identifier is sent, as itself, in one
      DELETE FILE, and the reply's transport or status-word error is returned. */
  method DeleteFileIntended(card: Card, path: Path) returns (r: int)
    modifies card`pos, card`trace
    ensures !DeleteAccepted(path) ==>
              r == SC_ERROR_INVALID_ARGUMENTS && card.pos == old(card.pos) && card.trace == old(card.trace)
    ensures DeleteAccepted(path) ==>
              r == ReplyError(ReplyAt(card.script, old(card.pos)))
              && card.pos == old(card.pos) + 1
              && card.trace == old(card.trace) + [Sent(Apdu(0xF0, 0xE4, 0, 0, path.value, 0, 0))]
  {
    if path.kind != FileId || |path.value| != 2 {
      return SC_ERROR_INVALID_ARGUMENTS;
    }
    r := Transact(card, Apdu(0xF0, 0xE4, 0, 0, path.value, 0, 0));
  }

  /** As written, the 2-byte full path of the MF passes the guard, and the
      command sent deletes file 3F00. */
  lemma DeleteGuardLetsPathThrough()
    ensures var path := Path(FullPath, [0x3F, 0x00]);
      !DeleteRefused(path) && !DeleteAccepted(path) && DeleteApdu(path).data == MF
  {
  }

  /** P2 of CREATE FILE: the record count (truncated to a byte) of an EF that
      is not transparent, else 0. */
  function CreateP2(f: FileInfo): byte {
    if f.fileType != SC_FILE_TYPE_DF && f.efStructure != SC_FILE_EF_TRANSPARENT then U8(f.recordCount) else 0
  }

  /** The CREATE FILE command (CLA F0, INS E0) carrying an encoded header. */
  function CreateApdu(f: FileInfo, header: seq<byte>): Apdu {
    Apdu(0xF0, 0xE0, 0, CreateP2(f), header, 0, 0)
  }

  /** `flex_create_file`: a descriptor that cannot be encoded gives INVALID
      ARGUMENTS with nothing sent; otherwise one CREATE FILE carrying the
      as-written encoding is sent and the reply's transport or status-word
      error is returned. */
  method CreateFile(card: Card, file: File) returns (r: int)
    modifies card`pos, card`trace
    ensures var e := Encode(AsWritten, file.Info());
      (e.None? ==> r == SC_ERROR_INVALID_ARGUMENTS && card.pos == old(card.pos) && card.trace == old(card.trace))
      && (e.Some? ==> r == ReplyError(ReplyAt(card.script, old(card.pos)))
                      && card.pos == old(card.pos) + 1
                      && card.trace == old(card.trace) + [Sent(CreateApdu(file.Info(), e.value))])
  {
    ghost var f := file.Info();
    var sbuf := new byte[18](_ => 0);
    var e, sendlen := EncodeFileStructure(file, sbuf);
    if e != 0 {
      return SC_ERROR_INVALID_ARGUMENTS;
    }
    var recNr := 0;
    if file.fileType != SC_FILE_TYPE_DF && file.efStructure != SC_FILE_EF_TRANSPARENT {
      recNr := U8(file.recordCount);
    }
    var data := sbuf[..sendlen];
    ghost var enc := Encode(AsWritten, f).value;
    assert data == enc by {
      assert sbuf[..][0..sendlen] == data;
    }
    r := Transact(card, Apdu(0xF0, 0xE0, 0, recNr, data, 0, 0));
  }
}

=== FILE: flex_acl.dfy ===
/** The Cryptoflex 4-bit access-condition codec (card-flex.c): a nibble read
    from a file header names an access condition of the library, and a
    condition is written back as the first nibble that names it. */
module FlexAcl {
  import opened ScTypes

  /** An access condition of the library (`unsigned int`, a set of bits). */
  type AclValue = x: int | 0 <= x < 0x1_0000_0000

  // Access conditions. Their values live in a header that is not part of this
  // model; the codec relies only on the eleven table entries being distinct.
  const SC_AC_NONE: AclValue := 0x00
  const SC_AC_CHV1: AclValue := 0x01
  const SC_AC_CHV2: AclValue := 0x02
  const SC_AC_PRO: AclValue := 0x08
  const SC_AC_AUT: AclValue := 0x10
  const SC_AC_UNKNOWN: AclValue := 0xFFFF_FFFE
  const SC_AC_NEVER: AclValue := 0xFFFF_FFFF

  /** The one nibble table both directions use (card-flex.c keeps two equal copies). */
  function AclTable(i: int): AclValue
    requires 0 <= i < 16
  {
    match i
    case 0 => SC_AC_NONE
    case 1 => SC_AC_CHV1
    case 2 => SC_AC_CHV2
    case 3 => SC_AC_PRO
    case 4 => SC_AC_AUT
    case 6 => SC_AC_CHV1 + SC_AC_PRO
    case 7 => SC_AC_CHV2 + SC_AC_PRO
    case 8 => SC_AC_CHV1 + SC_AC_AUT
    case 9 => SC_AC_CHV2 + SC_AC_AUT
    case 15 => SC_AC_NEVER
    case _ => SC_AC_UNKNOWN
  }

  /** True when some nibble names `acl`. */
  predicate InTable(acl: AclValue) {
    exists j :: 0 <= j < 16 && AclTable(j) == acl
  }

  /** The nibbles that name no access condition. */
  predicate UnnamedNibble(n: int) {
    n == 5 || 10 <= n <= 14
  }

  /** `ac_to_acl`: total over bytes, only the low nibble is looked at. */
  function AcToAcl(nibble: byte): (acl: AclValue)
    ensures InTable(acl)
    ensures acl == SC_AC_UNKNOWN <==> UnnamedNibble(nibble % 16)
    ensures !UnnamedNibble(nibble % 16) ==> forall j :: 0 <= j < 16 && j != nibble % 16 ==> AclTable(j) != acl
  {
    AclTable(nibble % 16)
  }

  /** The first index at or after `i` whose table entry is `acl`, or -1. */
  function IndexFrom(acl: AclValue, i: nat): (r: int)
    requires i <= 16
    decreases 16 - i
    ensures r == -1 <==> forall j :: i <= j < 16 ==> AclTable(j) != acl
    ensures r != -1 ==> i <= r < 16 && AclTable(r) == acl
    ensures r != -1 ==> forall j :: i <= j < r ==> AclTable(j) != acl
  {
    if i == 16 then -1
    else if AclTable(i) == acl then i
    else IndexFrom(acl, i + 1)
  }

  /** The nibble `acl_to_ac` gives for an access condition: its first table hit, or -1. */
  function AcCode(acl: AclValue): (r: int)
    ensures r == -1 <==> !InTable(acl)
    ensures r != -1 ==> 0 <= r < 16 && AclTable(r) == acl
    ensures r != -1 ==> forall j :: 0 <= j < r ==> AclTable(j) != acl
  {
    IndexFrom(acl, 0)
  }

  /** `acl_to_ac`: linear search of the table for the first entry equal to `acl`. */
  method AclToAc(acl: AclValue) returns (r: int)
    ensures r == AcCode(acl)
    ensures r == -1 <==> !InTable(acl)
    ensures r != -1 ==> 0 <= r < 16 && AclTable(r) == acl
  {
    var i := 0;
    while i < 16
      invariant 0 <= i <= 16
      invariant IndexFrom(acl, i) == IndexFrom(acl, 0)
    {
      if acl == AclTable(i) {
        return i;
      }
      i := i + 1;
    }
    return -1;
  }

  /** Every nibble that names a condition is written back as itself. */
  lemma {:induction false} NamedNibbleRoundTrip(n: byte)
    requires n < 16 && !UnnamedNibble(n)
    ensures AcCode(AcToAcl(n)) == n
  {
  }

  /** Every condition the table holds survives a write and a read. */
  lemma {:induction false} ConditionRoundTrip(acl: AclValue)
    requires InTable(acl)
    ensures AcCode(acl) >= 0 && AcToAcl(AcCode(acl)) == acl
  {
    var r := AcCode(acl);
    assert 0 <= r < 16 && r % 16 == r;
    assert AcToAcl(r) == AclTable(r);
  }

  /** UNKNOWN is written as nibble 5, the first nibble that reads as UNKNOWN. */
  lemma UnknownWrittenAsFive()
    ensures AcCode(SC_AC_UNKNOWN) == 5
  {
  }
}

=== FILE: flex_file.dfy ===
/** The Cryptoflex file header (card-flex.c): the reply to a select is parsed
    into the fields of a file descriptor, and a descriptor is encoded into the
    16 or 17 byte header a create command carries. */
module FlexFile {
  import opened ScTypes
  import opened FlexAcl

  // File types, EF structures and file status. Their values live in a header
  // that is not part of this model; the driver relies only on their being distinct.
  const SC_FILE_TYPE_WORKING_EF: nat := 0x01
  const SC_FILE_TYPE_DF: nat := 0x04
  const SC_FILE_EF_TRANSPARENT: nat := 0x01
  const SC_FILE_EF_LINEAR_FIXED: nat := 0x02
  const SC_FILE_EF_LINEAR_VARIABLE: nat := 0x04
  const SC_FILE_EF_CYCLIC: nat := 0x06
  const SC_FILE_STATUS_ACTIVATED: nat := 0x00
  const SC_FILE_STATUS_INVALIDATED: nat := 0x01

  /** The access condition of each operation a file descriptor has a slot for. */
  datatype AclSlots = AclSlots(
    select: AclValue, lock: AclValue, delete: AclValue, create: AclValue,
    rehabilitate: AclValue, invalidate: AclValue, listFiles: AclValue, crypto: AclValue,
    read: AclValue, update: AclValue, write: AclValue, erase: AclValue)

  /** Every slot UNKNOWN, as a select initialises a descriptor before parsing into it. */
  const ALL_UNKNOWN: AclSlots := AclSlots(
    SC_AC_UNKNOWN, SC_AC_UNKNOWN, SC_AC_UNKNOWN, SC_AC_UNKNOWN,
    SC_AC_UNKNOWN, SC_AC_UNKNOWN, SC_AC_UNKNOWN, SC_AC_UNKNOWN,
    SC_AC_UNKNOWN, SC_AC_UNKNOWN, SC_AC_UNKNOWN, SC_AC_UNKNOWN)

  /** The value of a `struct sc_file` (the fields this driver reads or writes). */
  datatype FileInfo = FileInfo(
    size: nat, id: nat, fileType: nat, efStructure: nat, acl: AclSlots,
    status: nat, recordLength: nat, recordCount: nat, magic: bool)

  /** A zeroed descriptor whose access conditions are all UNKNOWN. */
  const BLANK: FileInfo := FileInfo(0, 0, 0, 0, ALL_UNKNOWN, 0, 0, 0, false)

  /** `struct sc_file`, whose fields the parser writes in place. */
  class File {
    var size: nat
    var id: nat
    var fileType: nat
    var efStructure: nat
    var acl: AclSlots
    var status: nat
    var recordLength: nat
    var recordCount: nat
    var magic: bool

    constructor (info: FileInfo)
      ensures Info() == info
    {
      size, id, fileType, efStructure := info.size, info.id, info.fileType, info.efStructure;
      acl, status, recordLength, recordCount, magic := info.acl, info.status, info.recordLength, info.recordCount, info.magic;
    }

    /** The descriptor's current value. */
    function Info(): FileInfo
      reads this
    {
      FileInfo(size, id, fileType, efStructure, acl, status, recordLength, recordCount, magic)
    }

    /** `memset` to zero followed by setting every access condition to UNKNOWN. */
    method Reset()
      modifies this
      ensures Info() == BLANK
    {
      size, id, fileType, efStructure := 0, 0, 0, 0;
      acl, status, recordLength, recordCount, magic := ALL_UNKNOWN, 0, 0, 0, false;
    }
  }

  /** The EF structure a header type byte names, if it names one. */
  function StructureOfCode(code: byte): (s: Option<nat>)
    ensures s.Some? <==> code in {0x01, 0x02, 0x04, 0x06}
  {
    if code == 0x01 then Some(SC_FILE_EF_TRANSPARENT)
    else if code == 0x02 then Some(SC_FILE_EF_LINEAR_FIXED)
    else if code == 0x04 then Some(SC_FILE_EF_LINEAR_VARIABLE)
    else if code == 0x06 then Some(SC_FILE_EF_CYCLIC)
    else None
  }

  /** The header type byte of an EF structure, if the encoder knows the structure. */
  function StructureCode(s: nat): (code: Option<byte>)
    ensures code.Some? <==> s in {SC_FILE_EF_TRANSPARENT, SC_FILE_EF_LINEAR_FIXED, SC_FILE_EF_LINEAR_VARIABLE, SC_FILE_EF_CYCLIC}
    ensures code.Some? ==> code.value != 0x38 && StructureOfCode(code.value) == Some(s)
  {
    if s == SC_FILE_EF_TRANSPARENT then Some(0x01)
    else if s == SC_FILE_EF_LINEAR_FIXED then Some(0x02)
    else if s == SC_FILE_EF_LINEAR_VARIABLE then Some(0x04)
    else if s == SC_FILE_EF_CYCLIC then Some(0x06)
    else None
  }

  /** The outcome of parsing: the return code and the descriptor afterwards. */
  datatype Parsed = Parsed(code: int, file: FileInfo)

  /** The access conditions the header's three ACL bytes set, for the kind just parsed. */
  function ParsedAcl(b8: byte, b9: byte, b10: byte, fileType: nat, efStructure: nat, acl: AclSlots): AclSlots {
    var kindSlots :=
      if fileType == SC_FILE_TYPE_DF then
        acl.(listFiles := AcToAcl(b8 / 16), delete := AcToAcl(b9 / 16), create := AcToAcl(b9 % 16))
      else if efStructure == SC_FILE_EF_CYCLIC then
        acl.(read := AcToAcl(b8 / 16))
      else
        acl.(read := AcToAcl(b8 / 16), update := AcToAcl(b8 % 16));
    kindSlots.(rehabilitate := AcToAcl(b10 / 16), invalidate := AcToAcl(b10 % 16))
  }

  /** `parse_flex_sf_reply` on reply bytes `buf`, writing into a descriptor whose value was `f`. */
  function ParseReply(buf: seq<byte>, f: FileInfo): (p: Parsed)
    ensures p.code == -1 <==> |buf| < 14
    ensures p.code == SC_ERROR_UNKNOWN_REPLY <==> |buf| >= 14 && buf[6] !in {0x01, 0x02, 0x04, 0x06, 0x38}
    ensures p.code == -1 || p.code == SC_ERROR_UNKNOWN_REPLY || p.code == 0
    ensures p.code != -1 ==> p.file.size == (buf[2] as int) * 256 + buf[3] && p.file.id == (buf[4] as int) * 256 + buf[5]
    ensures p.code == 0 ==> p.file.magic && p.file.recordLength == f.recordLength && p.file.recordCount == f.recordCount
    ensures p.code == 0 ==> (p.file.status == SC_FILE_STATUS_ACTIVATED <==> buf[11] != 0)
    ensures p.code == 0 ==> (p.file.status == SC_FILE_STATUS_INVALIDATED <==> buf[11] == 0)
    ensures p.code == 0 && buf[6] == 0x38 ==> p.file.fileType == SC_FILE_TYPE_DF && p.file.efStructure == f.efStructure
    ensures p.code == 0 && buf[6] != 0x38 ==> p.file.fileType == SC_FILE_TYPE_WORKING_EF && Some(p.file.efStructure) == StructureOfCode(buf[6])
    ensures p.code != 0 ==> p.file.acl == f.acl && p.file.status == f.status && p.file.fileType == f.fileType
  {
    if |buf| < 14 then Parsed(-1, f)
    else
      var f1 := f.(size := (buf[2] as int) * 256 + buf[3], id := (buf[4] as int) * 256 + buf[5]);
      if buf[6] == 0x38 || StructureOfCode(buf[6]).Some? then
        var f2 := if buf[6] == 0x38 then f1.(fileType := SC_FILE_TYPE_DF)
                  else f1.(fileType := SC_FILE_TYPE_WORKING_EF, efStructure := StructureOfCode(buf[6]).value);
        var acl := ParsedAcl(buf[8], buf[9], buf[10], f2.fileType, f2.efStructure, f2.acl);
        var status := if buf[11] != 0 then SC_FILE_STATUS_ACTIVATED else SC_FILE_STATUS_INVALIDATED;
        Parsed(0, f2.(acl := acl, status := status, magic := true))
      else
        Parsed(SC_ERROR_UNKNOWN_REPLY, f1)
  }

  /** What parsing does to the access-condition slots: a DF gets LIST FILES,
      DELETE and CREATE, an EF gets READ and (unless cyclic) UPDATE, every kind
      gets REHABILITATE and INVALIDATE, and every other slot keeps its value. */
  lemma ParsedSlots(buf: seq<byte>, f: FileInfo)
    requires ParseReply(buf, f).code == 0
    ensures var a, pre := ParseReply(buf, f).file.acl, f.acl;
      a.select == pre.select && a.lock == pre.lock && a.crypto == pre.crypto
      && a.write == pre.write && a.erase == pre.erase
      && a.rehabilitate == AcToAcl(buf[10] / 16) && a.invalidate == AcToAcl(buf[10] % 16)
      && (buf[6] == 0x38 ==>
            a.listFiles == AcToAcl(buf[8] / 16) && a.delete == AcToAcl(buf[9] / 16)
            && a.create == AcToAcl(buf[9] % 16) && a.read == pre.read && a.update == pre.update)
      && (buf[6] != 0x38 ==>
            a.read == AcToAcl(buf[8] / 16) && a.listFiles == pre.listFiles
            && a.delete == pre.delete && a.create == pre.create
            && a.update == (if buf[6] == 0x06 then pre.update else AcToAcl(buf[8] % 16)))
  {
  }

  /** `parse_flex_sf_reply`: walks the reply and writes the descriptor's fields. */
  method ParseFlexReply(buf: seq<byte>, file: File) returns (r: int)
    modifies file
    ensures r == ParseReply(buf, old(file.Info())).code
    ensures file.Info() == ParseReply(buf, old(file.Info())).file
  {
    if |buf| < 14 {
      return -1;
    }
    var p := 2;
    var b1, b2 := buf[p], buf[p + 1];
    p := p + 2;
    file.size := (b1 as int) * 256 + b2;
    b1, b2 := buf[p], buf[p + 1];
    p := p + 2;
    file.id := (b1 as int) * 256 + b2;
    if buf[p] == 0x38 {
      file.fileType := SC_FILE_TYPE_DF;
    } else {
      var s := StructureOfCode(buf[p]);
      if s.None? {
        return SC_ERROR_UNKNOWN_REPLY;
      }
      file.fileType := SC_FILE_TYPE_WORKING_EF;
      file.efStructure := s.value;
    }
    p := p + 2;
    ParseAclStatus(buf, p, file);
    return 0;
  }

  /** The rest of `parse_flex_sf_reply` once the type is known: the three ACL
      bytes from `at` on, then the status byte; the descriptor is marked valid. */
  method ParseAclStatus(buf: seq<byte>, at: nat, file: File)
    requires at + 4 <= |buf|
    modifies file
    ensures file.Info() == old(file.Info()).(
      acl := ParsedAcl(buf[at], buf[at + 1], buf[at + 2], old(file.fileType), old(file.efStructure), old(file.acl)),
      status := if buf[at + 3] != 0 then SC_FILE_STATUS_ACTIVATED else SC_FILE_STATUS_INVALIDATED,
      magic := true)
  {
    var p := at;
    if file.fileType == SC_FILE_TYPE_DF {
      file.acl := file.acl.(listFiles := AcToAcl(buf[p] / 16));
      file.acl := file.acl.(delete := AcToAcl(buf[p + 1] / 16));
      file.acl := file.acl.(create := AcToAcl(buf[p + 1] % 16));
    } else {
      file.acl := file.acl.(read := AcToAcl(buf[p] / 16));
      if file.efStructure != SC_FILE_EF_CYCLIC {
        file.acl := file.acl.(update := AcToAcl(buf[p] % 16));
      }
    }
    file.acl := file.acl.(rehabilitate := AcToAcl(buf[p + 2] / 16));
    file.acl := file.acl.(invalidate := AcToAcl(buf[p + 2] % 16));
    p := p + 3;
    file.status := if buf[p] != 0 then SC_FILE_STATUS_ACTIVATED else SC_FILE_STATUS_INVALIDATED;
    file.magic := true;
  }

  /** Where the encoder puts the two nibbles of an ACL byte. */
  datatype NibbleLayout =
    | AsWritten   // `(hi & 0x0F) << 8 | (lo & 0x0F)` stored in a `u8`; INVALIDATE, REHABILITATE in byte 10
    | Intended    // `(hi & 0x0F) << 4 | (lo & 0x0F)`; REHABILITATE, INVALIDATE in byte 10

  /** One ACL byte built from two table nibbles. */
  function Pack(layout: NibbleLayout, hi: nat, lo: nat): (b: byte)
    ensures layout.AsWritten? ==> b == lo % 16
  {
    match layout
    // the two operands of `|` have no bit in common, so `|` is `+`
    case AsWritten => U8((hi % 16) * 256 + lo % 16)
    case Intended => (hi % 16) * 16 + lo % 16
  }

  /** True when every condition the encoder looks up (LIST FILES, DELETE and
      CREATE of a DF; READ, UPDATE, INVALIDATE and REHABILITATE of an EF) has a nibble. */
  predicate ConditionsEncodable(f: FileInfo) {
    if f.fileType == SC_FILE_TYPE_DF then
      AcCode(f.acl.listFiles) >= 0 && AcCode(f.acl.delete) >= 0 && AcCode(f.acl.create) >= 0
    else
      AcCode(f.acl.read) >= 0 && AcCode(f.acl.update) >= 0
      && AcCode(f.acl.invalidate) >= 0 && AcCode(f.acl.rehabilitate) >= 0
  }

  /** True when the header gets the extended layout with a record-length byte. */
  predicate ExtendedLayout(f: FileInfo) {
    f.fileType != SC_FILE_TYPE_DF
    && (f.efStructure == SC_FILE_EF_LINEAR_FIXED || f.efStructure == SC_FILE_EF_CYCLIC)
  }

  /** Byte 10 of an EF header from the nibbles of INVALIDATE and REHABILITATE. */
  function StatusAclByte(layout: NibbleLayout, invalidate: nat, rehabilitate: nat): byte {
    match layout
    case AsWritten => Pack(layout, invalidate, rehabilitate)
    case Intended => Pack(layout, rehabilitate, invalidate)
  }

  /** Bytes 8 to 10 of the header. */
  function AclBytes(layout: NibbleLayout, f: FileInfo): (b: seq<byte>)
    requires ConditionsEncodable(f)
    ensures |b| == 3
  {
    if f.fileType == SC_FILE_TYPE_DF then
      [Pack(layout, AcCode(f.acl.listFiles), 0), Pack(layout, AcCode(f.acl.delete), AcCode(f.acl.create)), 0]
    else
      [Pack(layout, AcCode(f.acl.read), AcCode(f.acl.update)), 0,
       StatusAclByte(layout, AcCode(f.acl.invalidate), AcCode(f.acl.rehabilitate))]
  }

  /** A 16-bit quantity as two big-endian bytes, each stored in a `u8`. */
  function BigEndian16(x: nat): (b: seq<byte>)
    ensures |b| == 2 && (b[0] as int) * 256 + b[1] == x % 65536
    ensures x < 65536 ==> (b[0] as int) * 256 + b[1] == x
  {
    var hi, lo := x / 256, x % 256;
    assert x == hi * 256 + lo;
    assert x % 65536 == (hi % 256) * 256 + lo by { ModSplit(x, hi, lo); }
    [U8(hi), lo]
  }

  lemma {:induction false} ModSplit(x: nat, hi: nat, lo: nat)
    requires x == hi * 256 + lo && lo < 256
    ensures x % 65536 == (hi % 256) * 256 + lo
  {
    var q := hi / 256;
    assert hi == q * 256 + hi % 256;
    assert x == q * 65536 + ((hi % 256) * 256 + lo);
  }

  /** The type byte of the header, if the encoder knows the kind of file. */
  function TypeCode(f: FileInfo): (code: Option<byte>)
    ensures code.Some? <==> f.fileType == SC_FILE_TYPE_DF || StructureCode(f.efStructure).Some?
  {
    if f.fileType == SC_FILE_TYPE_DF then Some(0x38) else StructureCode(f.efStructure)
  }

  /** The status byte: 0 when the INVALIDATED bit of the status is set, else 1. */
  function StatusByte(status: nat): (b: byte)
    ensures b == 0 <==> status % 2 == SC_FILE_STATUS_INVALIDATED
  {
    if status % 2 == SC_FILE_STATUS_INVALIDATED then 0x00 else 0x01
  }

  /** The layout byte: 4 for the extended layout, 3 otherwise. */
  function LayoutByte(f: FileInfo): (b: byte)
    ensures b == 4 <==> ExtendedLayout(f)
    ensures b == 3 <==> !ExtendedLayout(f)
  {
    if ExtendedLayout(f) then 0x04 else 0x03
  }

  /** Bytes 0 to 7 of the header: marker, size, id, type byte and FF. */
  function Prefix(f: FileInfo): (p: seq<byte>)
    requires TypeCode(f).Some?
    ensures |p| == 8 && p[0] == 0xFF && p[1] == 0xFF && p[6] == TypeCode(f).value && p[7] == 0xFF
    ensures [p[2], p[3]] == BigEndian16(f.size) && [p[4], p[5]] == BigEndian16(f.id)
  {
    [0xFF, 0xFF] + BigEndian16(f.size) + BigEndian16(f.id) + [TypeCode(f).value, 0xFF]
  }

  /** Bytes 11 to 15 of the header: status, layout and three zero bytes. */
  function Trailer(f: FileInfo): (t: seq<byte>)
    ensures |t| == 5
  {
    [StatusByte(f.status), LayoutByte(f), 0, 0, 0]
  }

  /** The first 16 bytes of the header of an encodable descriptor. */
  function Header(layout: NibbleLayout, f: FileInfo): (h: seq<byte>)
    requires TypeCode(f).Some? && ConditionsEncodable(f)
    ensures |h| == 16 && h[..8] == Prefix(f) && h[8..11] == AclBytes(layout, f) && h[11..] == Trailer(f)
  {
    var h := Prefix(f) + AclBytes(layout, f) + Trailer(f);
    assert h[..8] == Prefix(f) && h[8..11] == AclBytes(layout, f) && h[11..] == Trailer(f);
    h
  }

  /** `encode_file_structure` with the given nibble layout: None when the
      structure is unknown or some condition looked up has no nibble; otherwise
      the 16-byte header, followed by the record length in the extended layout. */
  function Encode(layout: NibbleLayout, f: FileInfo): (r: Option<seq<byte>>)
    ensures r.Some? <==> TypeCode(f).Some? && ConditionsEncodable(f)
    ensures r.Some? ==> |r.value| == (if ExtendedLayout(f) then 17 else 16)
    ensures r.Some? ==> r.value[..16] == Header(layout, f)
    ensures r.Some? && ExtendedLayout(f) ==> r.value[16] == f.recordLength % 256
  {
    if TypeCode(f).None? || !ConditionsEncodable(f) then None
    else if ExtendedLayout(f) then Some(Header(layout, f) + [U8(f.recordLength)])
    else Some(Header(layout, f))
  }

  /** The bytes an encoded header starts with: the FF FF marker, size and id
      big-endian (modulo 2^16, as `u8` stores truncate), the type byte and FF. */
  lemma EncodedPrefix(layout: NibbleLayout, f: FileInfo)
    requires Encode(layout, f).Some?
    ensures var h := Encode(layout, f).value;
      h[0] == 0xFF && h[1] == 0xFF && h[6] == TypeCode(f).value && h[7] == 0xFF
      && (h[2] as int) * 256 + h[3] == f.size % 65536
      && (h[4] as int) * 256 + h[5] == f.id % 65536
  {
    var h := Encode(layout, f).value;
    var p := Prefix(f);
    assert h[..8] == p by {
      assert h[..16] == Header(layout, f);
      assert h[..8] == h[..16][..8];
    }
    forall i | 0 <= i < 8 ensures h[i] == p[i] { assert h[i] == h[..8][i]; }
    assert [h[2], h[3]] == BigEndian16(f.size) && [h[4], h[5]] == BigEndian16(f.id);
  }

  /** The bytes after the ACL bytes: the status byte (0 iff INVALIDATED is
      set), the layout byte, three zero bytes and, in the extended layout, the
      record length truncated to a byte. */
  lemma EncodedTrailer(layout: NibbleLayout, f: FileInfo)
    requires Encode(layout, f).Some?
    ensures var h := Encode(layout, f).value;
      (h[11] == 0 <==> f.status % 2 == SC_FILE_STATUS_INVALIDATED)
      && h[12] == (if ExtendedLayout(f) then 4 else 3)
      && h[13] == 0 && h[14] == 0 && h[15] == 0
      && (ExtendedLayout(f) ==> h[16] == f.recordLength % 256)
  {
    var h := Encode(layout, f).value;
    var t := Trailer(f);
    assert h[11..16] == t by {
      assert h[..16] == Header(layout, f);
      assert h[11..16] == h[..16][11..];
    }
    forall i | 11 <= i < 16 ensures h[i] == t[i - 11] { assert h[i] == h[11..16][i - 11]; }
  }

  /** Bytes 8 to 10 of an encoded header are the ACL bytes. */
  lemma EncodedAcl(layout: NibbleLayout, f: FileInfo)
    requires Encode(layout, f).Some?
    ensures Encode(layout, f).value[8..11] == AclBytes(layout, f)
  {
    var h := Encode(layout, f).value;
    assert h[..16] == Header(layout, f);
    assert h[8..11] == h[..16][8..11];
  }

  /** `s` with the bytes from index `at` on overwritten by `part`. */
  function Splice(s: seq<byte>, at: nat, part: seq<byte>): (t: seq<byte>)
    requires at + |part| <= |s|
    ensures |t| == |s| && t[..at] == s[..at] && t[at..at + |part|] == part
    ensures t[at + |part|..] == s[at + |part|..]
  {
    s[..at] + part + s[at + |part|..]
  }

  /** Two sequences that agree from `i` on agree from any later `j` on. */
  lemma SuffixKept(a: seq<byte>, b: seq<byte>, i: nat, j: nat)
    requires i <= j <= |a| == |b| && a[i..] == b[i..]
    ensures a[j..] == b[j..]
  {
    assert a[j..] == a[i..][j - i..] && b[j..] == b[i..][j - i..];
  }

  /** Overwriting two adjacent stretches is overwriting their concatenation. */
  lemma {:induction false} SpliceAdjacent(s: seq<byte>, at: nat, p: seq<byte>, q: seq<byte>)
    requires at + |p| + |q| <= |s|
    ensures Splice(Splice(s, at, p), at + |p|, q) == Splice(s, at, p + q)
  {
    var t := Splice(s, at, p);
    assert t[..at + |p|] == s[..at] + p;
    assert t[at + |p| + |q|..] == s[at + |p| + |q|..];
  }

  /** The first part of `encode_file_structure`: bytes 0 to 7, stopping after
      byte 5 when the EF structure has no type byte. */
  method WritePrefix(f: FileInfo, buf: array<byte>) returns (ok: bool)
    requires buf.Length >= 8
    modifies buf
    ensures ok <==> TypeCode(f).Some?
    ensures ok ==> buf[..] == Splice(old(buf[..]), 0, Prefix(f))
    ensures buf[..2] == [0xFF, 0xFF] && buf[8..] == old(buf[8..])
  {
    buf[0], buf[1] := 0xFF, 0xFF;
    buf[2], buf[3] := U8(f.size / 256), f.size % 256;
    buf[4], buf[5] := U8(f.id / 256), f.id % 256;
    if f.fileType == SC_FILE_TYPE_DF {
      buf[6] := 0x38;
    } else {
      var code := StructureCode(f.efStructure);
      if code.None? {
        return false;
      }
      buf[6] := code.value;
    }
    buf[7] := 0xFF;
    ok := true;
    assert buf[..8] == Prefix(f);
    assert buf[..] == buf[..8] + buf[8..];
  }

  /** Bytes 8 to 10 of a header: the ACL bytes of a DF or of an EF. */
  method WriteAcl(f: FileInfo, buf: array<byte>) returns (r: int)
    requires buf.Length >= 11
    modifies buf
    ensures r == 0 || r == -1
    ensures r == 0 <==> ConditionsEncodable(f)
    ensures r == 0 ==> buf[..] == Splice(old(buf[..]), 8, AclBytes(AsWritten, f))
    ensures r != 0 ==> buf[..2] == old(buf[..2]) && buf[11..] == old(buf[11..])
  {
    if f.fileType == SC_FILE_TYPE_DF {
      r := WriteDfAcl(f, buf);
    } else {
      r := WriteEfAcl(f, buf);
    }
    if r != 0 {
      assert buf[..2] == buf[..8][..2];
    }
  }

  /** The ACL bytes of a DF: LIST FILES, then DELETE and CREATE, stopping
      with -1 at the first condition that has no nibble. */
  method WriteDfAcl(f: FileInfo, buf: array<byte>) returns (r: int)
    requires buf.Length >= 11 && f.fileType == SC_FILE_TYPE_DF
    modifies buf
    ensures r == 0 || r == -1
    ensures r == 0 <==> ConditionsEncodable(f)
    ensures r == 0 ==> buf[..] == Splice(old(buf[..]), 8, AclBytes(AsWritten, f))
    ensures r != 0 ==> buf[..8] == old(buf[..8]) && buf[11..] == old(buf[11..])
  {
    ghost var orig := buf[..];
    var k0 := AclToAc(f.acl.listFiles);
    if k0 < 0 {
      return k0;
    }
    var b8 := Pack(AsWritten, k0, 0);
    buf[8] := b8;
    ghost var mid := buf[..];
    assert mid == Splice(orig, 8, [b8]) by {
      assert mid == mid[..8] + [b8] + mid[9..];
    }
    r := WriteDfContentAcl(f, buf);
    if r == 0 {
      SpliceAdjacent(orig, 8, [b8], buf[9..11]);
      assert [b8] + buf[9..11] == AclBytes(AsWritten, f);
    } else {
      assert buf[11..] == mid[9..][2..] == orig[9..][2..];
    }
  }

  /** Bytes 9 and 10 of a DF header: DELETE and CREATE, then a zero byte. */
  method WriteDfContentAcl(f: FileInfo, buf: array<byte>) returns (r: int)
    requires buf.Length >= 11
    modifies buf
    ensures r == 0 || r == -1
    ensures r == 0 <==> AcCode(f.acl.delete) >= 0 && AcCode(f.acl.create) >= 0
    ensures r == 0 ==> buf[..] == Splice(old(buf[..]), 9, [Pack(AsWritten, AcCode(f.acl.delete), AcCode(f.acl.create)), 0])
    ensures r != 0 ==> buf[..] == old(buf[..])
  {
    var k1 := AclToAc(f.acl.delete);
    if k1 < 0 {
      return k1;
    }
    var k2 := AclToAc(f.acl.create);
    if k2 < 0 {
      return k2;
    }
    ghost var orig := buf[..];
    var b9 := Pack(AsWritten, k1, k2);
    buf[9], buf[10] := b9, 0;
    r := 0;
    assert buf[..9] == orig[..9] && buf[11..] == orig[11..];
    assert buf[..] == orig[..9] + [b9, 0] + orig[11..];
  }

  /** The ACL bytes of an EF: READ and UPDATE, a zero byte, then INVALIDATE
      and REHABILITATE, stopping with -1 at the first condition that has no nibble. */
  method WriteEfAcl(f: FileInfo, buf: array<byte>) returns (r: int)
    requires buf.Length >= 11 && f.fileType != SC_FILE_TYPE_DF
    modifies buf
    ensures r == 0 || r == -1
    ensures r == 0 <==> ConditionsEncodable(f)
    ensures r == 0 ==> buf[..] == Splice(old(buf[..]), 8, AclBytes(AsWritten, f))
    ensures r != 0 ==> buf[..8] == old(buf[..8]) && buf[11..] == old(buf[11..])
  {
    ghost var orig := buf[..];
    r := WriteEfAccess(f, buf);
    if r != 0 {
      return;
    }
    ghost var mid := buf[..];
    ghost var access := mid[8..10];
    r := WriteEfStatusAcl(f, buf);
    if r == 0 {
      SpliceAdjacent(orig, 8, access, buf[10..11]);
      assert access + buf[10..11] == AclBytes(AsWritten, f);
    } else {
      assert buf[11..] == mid[10..][1..] == orig[10..][1..];
    }
  }

  /** Bytes 8 and 9 of an EF header: READ and UPDATE, then a zero byte. */
  method WriteEfAccess(f: FileInfo, buf: array<byte>) returns (r: int)
    requires buf.Length >= 11
    modifies buf
    ensures r == 0 || r == -1
    ensures r == 0 <==> AcCode(f.acl.read) >= 0 && AcCode(f.acl.update) >= 0
    ensures r == 0 ==> buf[..] == Splice(old(buf[..]), 8, [Pack(AsWritten, AcCode(f.acl.read), AcCode(f.acl.update)), 0])
    ensures r != 0 ==> buf[..] == old(buf[..])
  {
    var k0 := AclToAc(f.acl.read);
    if k0 < 0 {
      return k0;
    }
    var k1 := AclToAc(f.acl.update);
    if k1 < 0 {
      return k1;
    }
    ghost var orig := buf[..];
    var b8 := Pack(AsWritten, k0, k1);
    buf[8], buf[9] := b8, 0;
    r := 0;
    assert buf[..8] == orig[..8] && buf[10..] == orig[10..];
    assert buf[..] == orig[..8] + [b8, 0] + orig[10..];
  }

  /** Byte 10 of an EF header from INVALIDATE and REHABILITATE. */
  method WriteEfStatusAcl(f: FileInfo, buf: array<byte>) returns (r: int)
    requires buf.Length >= 11
    modifies buf
    ensures r == 0 || r == -1
    ensures r == 0 <==> AcCode(f.acl.invalidate) >= 0 && AcCode(f.acl.rehabilitate) >= 0
    ensures r == 0 ==> buf[..] == Splice(old(buf[..]), 10, [StatusAclByte(AsWritten, AcCode(f.acl.invalidate), AcCode(f.acl.rehabilitate))])
    ensures r != 0 ==> buf[..] == old(buf[..])
  {
    var k2 := AclToAc(f.acl.invalidate);
    if k2 < 0 {
      return k2;
    }
    var k3 := AclToAc(f.acl.rehabilitate);
    if k3 < 0 {
      return k3;
    }
    ghost var orig := buf[..];
    var b10 := StatusAclByte(AsWritten, k2, k3);
    buf[10] := b10;
    r := 0;
    assert buf[..10] == orig[..10] && buf[11..] == orig[11..];
    assert buf[..] == orig[..10] + [b10] + orig[11..];
  }

  /** Bytes 11 onwards of an encoded header: the trailer and, in the extended
      layout, the record length truncated to a byte. */
  function Tail(f: FileInfo): (t: seq<byte>)
    ensures |t| == (if ExtendedLayout(f) then 6 else 5)
  {
    if ExtendedLayout(f) then Trailer(f) + [U8(f.recordLength)] else Trailer(f)
  }

  /** The last part of `encode_file_structure`: bytes 11 to 15, then the
      record length in byte 16 when the layout byte says 4. */
  method WriteTail(f: FileInfo, buf: array<byte>) returns (buflen: nat)
    requires buf.Length >= 17
    modifies buf
    ensures buflen == 11 + |Tail(f)|
    ensures buf[..] == Splice(old(buf[..]), 11, Tail(f))
  {
    buf[11] := StatusByte(f.status);
    if f.fileType != SC_FILE_TYPE_DF
      && (f.efStructure == SC_FILE_EF_LINEAR_FIXED || f.efStructure == SC_FILE_EF_CYCLIC) {
      buf[12] := 0x04;
    } else {
      buf[12] := 0x03;
    }
    buf[13], buf[14], buf[15] := 0, 0, 0;
    if buf[12] == 0x04 {
      buf[16] := U8(f.recordLength);
      buflen := 17;
    } else {
      buflen := 16;
    }
    assert buf[..] == buf[..11] + buf[11..buflen] + buf[buflen..];
  }

  /** The encoding is the header followed by the tail. */
  lemma EncodeIsHeaderTail(layout: NibbleLayout, f: FileInfo)
    requires Encode(layout, f).Some?
    ensures Encode(layout, f).value == Prefix(f) + AclBytes(layout, f) + Tail(f)
  {
  }

  /** `encode_file_structure`: fills `buf` in place. On success the first
      `buflen` bytes are the as-written encoding and nothing after them is
      touched; on failure it returns -1 having written at most bytes 0 to 10. */
  method EncodeFileStructure(file: File, buf: array<byte>) returns (r: int, buflen: nat)
    requires buf.Length >= 17
    modifies buf
    ensures r == 0 <==> Encode(AsWritten, file.Info()).Some?
    ensures r != 0 ==> r == -1 && buf[..2] == [0xFF, 0xFF] && buf[11..] == old(buf[11..])
    ensures r == 0 ==> buflen == |Encode(AsWritten, file.Info()).value|
    ensures r == 0 ==> buf[..] == Splice(old(buf[..]), 0, Encode(AsWritten, file.Info()).value)
  {
    var f := file.Info();
    ghost var orig := buf[..];
    buflen := 0;
    var ok := WritePrefix(f, buf);
    if !ok {
      return -1, buflen;
    }
    ghost var afterPrefix := buf[..];
    r := WriteAcl(f, buf);
    if r != 0 {
      SuffixKept(afterPrefix, orig, 8, 11);
      return r, buflen;
    }
    ghost var afterAcl := buf[..];
    buflen := WriteTail(f, buf);
    var p, a, t := Prefix(f), AclBytes(AsWritten, f), Tail(f);
    SpliceAdjacent(orig, 0, p, a);
    SpliceAdjacent(orig, 0, p + a, t);
    EncodeIsHeaderTail(AsWritten, f);
    assert p + a + t == Encode(AsWritten, f).value;
  }
}

module FlexFileRoundTrip {
  import opened ScTypes
  import opened FlexAcl
  import opened FlexFile

  /** The status a descriptor has once written to the card and read back:
      only the INVALIDATED bit survives. */
  function StoredStatus(status: nat): (s: nat)
    ensures s == SC_FILE_STATUS_INVALIDATED <==> status % 2 == SC_FILE_STATUS_INVALIDATED
    ensures s == SC_FILE_STATUS_ACTIVATED || s == SC_FILE_STATUS_INVALIDATED
  {
    if status % 2 == SC_FILE_STATUS_INVALIDATED then SC_FILE_STATUS_INVALIDATED else SC_FILE_STATUS_ACTIVATED
  }

  /** Parsing an encoded header, with either nibble layout, gives back the size
      and id (when they fit in 16 bits), the kind of file, the EF structure and
      the status, whatever the descriptor parsed into held before. */
  lemma {:induction false} HeaderRoundTrip(layout: NibbleLayout, f: FileInfo, g: FileInfo)
    requires Encode(layout, f).Some? && f.size < 65536 && f.id < 65536
    ensures var p := ParseReply(Encode(layout, f).value, g);
      p.code == 0 && p.file.size == f.size && p.file.id == f.id && p.file.magic
      && p.file.fileType == (if f.fileType == SC_FILE_TYPE_DF then SC_FILE_TYPE_DF else SC_FILE_TYPE_WORKING_EF)
      && (f.fileType != SC_FILE_TYPE_DF ==> p.file.efStructure == f.efStructure)
      && p.file.status == StoredStatus(f.status)
  {
    var h := Encode(layout, f).value;
    EncodedPrefix(layout, f);
    EncodedTrailer(layout, f);
    assert |h| >= 14;
    if f.fileType == SC_FILE_TYPE_DF {
      assert h[6] == 0x38;
    } else {
      assert h[6] != 0x38 && StructureOfCode(h[6]) == Some(f.efStructure);
    }
  }

  /** The nibbles of a byte packed by each layout, as the parser splits it. */
  lemma {:induction false} PackNibbles(layout: NibbleLayout, hi: nat, lo: nat)
    requires hi < 16 && lo < 16
    ensures layout.Intended? ==> Pack(layout, hi, lo) / 16 == hi && Pack(layout, hi, lo) % 16 == lo
    ensures layout.AsWritten? ==> Pack(layout, hi, lo) / 16 == 0 && Pack(layout, hi, lo) % 16 == lo
  {
  }

  /** A condition that has a nibble is read back as itself. */
  lemma ReadBack(acl: AclValue)
    requires AcCode(acl) >= 0
    ensures AcToAcl(AcCode(acl)) == acl
  {
    ConditionRoundTrip(acl);
  }

  /** With the intended layout LIST FILES, DELETE and CREATE of a DF are read
      back into the slots they came from. */
  lemma {:induction false} IntendedDfAclRoundTrip(f: FileInfo, g: FileInfo)
    requires Encode(Intended, f).Some? && f.fileType == SC_FILE_TYPE_DF
    ensures var a := ParseReply(Encode(Intended, f).value, g).file.acl;
      a.listFiles == f.acl.listFiles && a.delete == f.acl.delete && a.create == f.acl.create
  {
    var h := Encode(Intended, f).value;
    EncodedPrefix(Intended, f);
    EncodedAcl(Intended, f);
    assert h[8] == AclBytes(Intended, f)[0] && h[9] == AclBytes(Intended, f)[1];
    var k0, k1, k2 := AcCode(f.acl.listFiles), AcCode(f.acl.delete), AcCode(f.acl.create);
    PackNibbles(Intended, k0, 0);
    PackNibbles(Intended, k1, k2);
    assert h[8] == Pack(Intended, k0, 0) && h[9] == Pack(Intended, k1, k2);
    assert h[8] / 16 == k0 && h[9] / 16 == k1 && h[9] % 16 == k2;
    ReadBack(f.acl.listFiles);
    ReadBack(f.acl.delete);
    ReadBack(f.acl.create);
    ParsedSlots(h, g);
  }

  /** With the intended layout READ, UPDATE (unless the EF is cyclic),
      INVALIDATE and REHABILITATE of an EF are read back into the slots they came from. */
  lemma {:induction false} IntendedEfAclRoundTrip(f: FileInfo, g: FileInfo)
    requires Encode(Intended, f).Some? && f.fileType != SC_FILE_TYPE_DF
    ensures var a := ParseReply(Encode(Intended, f).value, g).file.acl;
      a.read == f.acl.read && a.invalidate == f.acl.invalidate && a.rehabilitate == f.acl.rehabilitate
      && (f.efStructure != SC_FILE_EF_CYCLIC ==> a.update == f.acl.update)
  {
    var h := Encode(Intended, f).value;
    EncodedPrefix(Intended, f);
    EncodedAcl(Intended, f);
    assert h[8] == AclBytes(Intended, f)[0] && h[10] == AclBytes(Intended, f)[2];
    var k0, k1 := AcCode(f.acl.read), AcCode(f.acl.update);
    var k2, k3 := AcCode(f.acl.invalidate), AcCode(f.acl.rehabilitate);
    PackNibbles(Intended, k0, k1);
    PackNibbles(Intended, k3, k2);
    assert h[8] == Pack(Intended, k0, k1) && h[10] == Pack(Intended, k3, k2);
    assert h[8] / 16 == k0 && h[8] % 16 == k1 && h[10] / 16 == k3 && h[10] % 16 == k2;
    ReadBack(f.acl.read);
    ReadBack(f.acl.update);
    ReadBack(f.acl.invalidate);
    ReadBack(f.acl.rehabilitate);
    ParsedSlots(h, g);
  }

  /** With the layout as written every high nibble is 0, which reads as NONE,
      and the low nibble of byte 10, which holds REHABILITATE, is read as
      INVALIDATE: only CREATE of a DF, UPDATE of a non-cyclic EF and
      REHABILITATE (arriving in the INVALIDATE slot) carry over. */
  lemma {:induction false} AsWrittenAclRoundTrip(f: FileInfo, g: FileInfo)
    requires Encode(AsWritten, f).Some?
    ensures var a := ParseReply(Encode(AsWritten, f).value, g).file.acl;
      (f.fileType == SC_FILE_TYPE_DF ==>
         a.listFiles == SC_AC_NONE && a.delete == SC_AC_NONE && a.create == f.acl.create
         && a.rehabilitate == SC_AC_NONE && a.invalidate == SC_AC_NONE)
      && (f.fileType != SC_FILE_TYPE_DF ==>
         a.read == SC_AC_NONE && a.rehabilitate == SC_AC_NONE && a.invalidate == f.acl.rehabilitate
         && (f.efStructure != SC_FILE_EF_CYCLIC ==> a.update == f.acl.update))
  {
    var h := Encode(AsWritten, f).value;
    EncodedPrefix(AsWritten, f);
    EncodedAcl(AsWritten, f);
    assert h[8] == AclBytes(AsWritten, f)[0] && h[9] == AclBytes(AsWritten, f)[1] && h[10] == AclBytes(AsWritten, f)[2];
    if f.fileType == SC_FILE_TYPE_DF {
      PackNibbles(AsWritten, AcCode(f.acl.listFiles), 0);
      PackNibbles(AsWritten, AcCode(f.acl.delete), AcCode(f.acl.create));
      ReadBack(f.acl.create);
    } else {
      PackNibbles(AsWritten, AcCode(f.acl.read), AcCode(f.acl.update));
      PackNibbles(AsWritten, AcCode(f.acl.invalidate), AcCode(f.acl.rehabilitate));
      ReadBack(f.acl.update);
      ReadBack(f.acl.rehabilitate);
    }
    ParsedSlots(h, g);
  }

  /** A transparent EF readable after CHV1, never invalidatable and
      rehabilitatable after CHV1. */
  const SAMPLE_EF: FileInfo := FileInfo(16, 0x2F01, SC_FILE_TYPE_WORKING_EF, SC_FILE_EF_TRANSPARENT,
    ALL_UNKNOWN.(read := SC_AC_CHV1, update := SC_AC_CHV1, invalidate := SC_AC_NEVER, rehabilitate := SC_AC_CHV1),
    SC_FILE_STATUS_ACTIVATED, 0, 0, false)

  /** As written, the READ condition CHV1 of SAMPLE_EF is created on the card
      as NONE: its nibble 1 is shifted out of the byte. */
  lemma HighNibbleLost()
    ensures Encode(AsWritten, SAMPLE_EF).Some?
    ensures ParseReply(Encode(AsWritten, SAMPLE_EF).value, BLANK).file.acl.read == SC_AC_NONE != SAMPLE_EF.acl.read
  {
    assert ConditionsEncodable(SAMPLE_EF) by {
      assert AclTable(1) == SC_AC_CHV1 && AclTable(15) == SC_AC_NEVER;
    }
    AsWrittenAclRoundTrip(SAMPLE_EF, BLANK);
  }

  /** As written, SAMPLE_EF's INVALIDATE condition NEVER is read back as its
      REHABILITATE condition CHV1. */
  lemma StatusNibblesSwapped()
    ensures Encode(AsWritten, SAMPLE_EF).Some?
    ensures ParseReply(Encode(AsWritten, SAMPLE_EF).value, BLANK).file.acl.invalidate == SC_AC_CHV1 != SAMPLE_EF.acl.invalidate
  {
    assert ConditionsEncodable(SAMPLE_EF) by {
      assert AclTable(1) == SC_AC_CHV1 && AclTable(15) == SC_AC_NEVER;
    }
    AsWrittenAclRoundTrip(SAMPLE_EF, BLANK);
  }
}

=== FILE: pkcs15_cac.dfy ===
/** The CAC PKCS#15 emulation pass (pkcs15-cac.c) as it runs: a token whose
    info strings and object store the pass updates in place, the card's
    control calls, and the loops over the PIN table, the data objects and the
    certificate slots. Every method is proved against its function in CacPass. */
module Pkcs15Cac {
  import opened ScTypes
  import opened CacPass

  /** `prkey_info.path` rebased in place: a path of one or two bytes is moved
      two bytes up and `3F 00` written in front of it. */
  method RebaseKeyPath(value: array<byte>, len: nat) returns (newLen: nat)
    requires value.Length == SC_MAX_PATH_SIZE && len <= value.Length
    modifies value
    ensures newLen <= value.Length
    ensures value[..newLen] == RebasedKeyPath(old(value[..len]))
    ensures forall k :: 4 <= k < value.Length ==> value[k] == old(value[k])
    ensures len == 1 ==> value[3] == old(value[1])
    ensures !(1 <= len <= 2) ==> newLen == len && value[..] == old(value[..])
  {
    newLen := len;
    if len != 0 && len <= 2 {
      value[2] := value[0];
      value[3] := value[1];
      value[0] := 0x3F;
      value[1] := 0x00;
      newLen := len + 2;
      assert value[..newLen] == MF + old(value[..len]);
    }
  }

  /** How one certificate slot ends, as the loop sees it. */
  datatype SlotEnd = Next | Aborted(code: ErrorCode) | Left(code: ErrorCode)

  function EndOf(s: Step): SlotEnd {
    match s
    case Go(_, _) => Next
    case Abort(c, _) => Aborted(c)
    case Leave(c, _) => Left(c)
  }

  /** A PKCS#15 card under emulation: its card (type, and what the card's
      control calls and the PKCS#15 library report), the token info strings,
      the object store and the record of the calls made. */
  class P15Card {
    const cardType: int
    const env: CacEnv
    var tokenLabel: string
    var manufacturer: string
    var serial: string
    var objects: seq<Obj>
    var calls: seq<Call>

    function State(): Token
      reads this
    {
      Token(tokenLabel, manufacturer, serial, objects, calls)
    }

    constructor (cardType: int, env: CacEnv, t: Token)
      ensures this.cardType == cardType && this.env == env && State() == t
    {
      this.cardType := cardType;
      this.env := env;
      tokenLabel := t.tokenLabel;
      manufacturer := t.manufacturer;
      serial := t.serial;
      objects := t.objects;
      calls := t.calls;
    }

    // The card's control calls: each is recorded, and its outcome is the card's.

    method CtlSerialNr() returns (r: int, value: seq<byte>)
      modifies this`calls
      ensures calls == old(calls) + [GetSerial] && r == env.serialCode && value == env.serialValue
    {
      calls := calls + [GetSerial];
      r, value := env.serialCode, env.serialValue;
    }

    method CtlAcaPath() returns (r: int, path: seq<byte>)
      modifies this`calls
      ensures calls == old(calls) + [GetAcaPath] && r == env.acaCode && path == env.acaPath
    {
      calls := calls + [GetAcaPath];
      r, path := env.acaCode, env.acaPath;
    }

    method CtlInitGeneric() returns (r: int, count: nat)
      modifies this`calls
      ensures calls == old(calls) + [InitGeneric] && r == env.genericInit && count == |env.generic|
    {
      calls := calls + [InitGeneric];
      r, count := env.genericInit, |env.generic|;
    }

    method CtlNextGeneric(i: nat) returns (r: int, appLabel: string)
      requires i < |env.generic|
      modifies this`calls
      ensures calls == old(calls) + [NextGeneric]
      ensures r == env.generic[i].next && appLabel == env.generic[i].appLabel
    {
      calls := calls + [NextGeneric];
      r, appLabel := env.generic[i].next, env.generic[i].appLabel;
    }

    method CtlFinalGeneric() returns (r: int)
      modifies this`calls
      ensures calls == old(calls) + [FinalGeneric] && r == env.genericFinal
    {
      calls := calls + [FinalGeneric];
      r := env.genericFinal;
    }

    method CtlInitCerts() returns (r: int, count: nat)
      modifies this`calls
      ensures calls == old(calls) + [InitCerts] && r == env.certInit && count == |env.certs|
    {
      calls := calls + [InitCerts];
      r, count := env.certInit, |env.certs|;
    }

    method CtlNextCert(i: nat) returns (r: int, info: ObjInfo)
      requires i < |env.certs|
      modifies this`calls
      ensures calls == old(calls) + [NextCert] && r == env.certs[i].next && info == env.certs[i].info
    {
      calls := calls + [NextCert];
      r, info := env.certs[i].next, env.certs[i].info;
    }

    method CtlFinalCerts() returns (r: int)
      modifies this`calls
      ensures calls == old(calls) + [FinalCerts] && r == env.certFinal
    {
      calls := calls + [FinalCerts];
      r := env.certFinal;
    }

    /** An `sc_pkcs15emu_add_*` call: the store keeps the object unless it answers with an error. */
    method Store(o: Obj, answer: int) returns (r: int)
      modifies this`objects
      ensures r == answer
      ensures objects == old(objects) + (if answer >= 0 then [o] else [])
    {
      r := answer;
      if r >= 0 {
        objects := objects + [o];
      }
    }

    /** `sc_pkcs15_card_clear`. */
    method Clear()
      modifies this`objects, this`calls
      ensures State() == CacPass.Clear(old(State()))
    {
      objects := [];
      calls := calls + [Cleared];
    }

    /** The token strings: the card's default name, the manufacturer, and the
        serial in hexadecimal or "00000000" when the card cannot give it. */
    method SetDefaults()
      modifies this
      ensures State() == Defaults(cardType, env, old(State()))
    {
      tokenLabel := CardName(cardType);
      manufacturer := MANU_ID;
      var r, value := CtlSerialNr();
      if r < 0 {
        serial := NO_SERIAL;
      } else {
        serial := Hex(value);
      }
    }

    /** The PIN loop: each table row gets the ACA path and becomes a PIN object. */
    method AddPins() returns (r: int)
      modifies this
      ensures Run(r, State()) == Finish(PinsFrom(env, 0, old(State())))
    {
      var i: nat := 0;
      while i < |PINS|
        invariant i <= |PINS|
        invariant PinsFrom(env, 0, old(State())) == PinsFrom(env, i, State())
      {
        var path;
        r, path := CtlAcaPath();
        if r < 0 {
          Clear();
          return;
        }
        r := Store(PinObject(PINS[i], path), env.pinAdd);
        if r < 0 {
          Clear();
          return;
        }
        i := i + 1;
      }
      r := SC_SUCCESS;
    }

    /** The data-object loop, without its final call. */
    method GenericLoop(count: nat) returns (r: int)
      requires count == |env.generic|
      modifies this
      ensures var p := GenericFrom(env, 0, old(State()));
        State() == p.t && (p.Done? ==> r == 0) && (!p.Done? ==> r == p.code)
    {
      var i: nat := 0;
      while i < count
        invariant i <= count
        invariant GenericFrom(env, 0, old(State())) == GenericFrom(env, i, State())
      {
        var appLabel;
        r, appLabel := CtlNextGeneric(i);
        if r < 0 {
          return;
        }
        r := Store(DataObj(appLabel), env.generic[i].add);
        if r < 0 {
          return;
        }
        i := i + 1;
      }
      r := SC_SUCCESS;
    }

    /** The data-object phase: init, the objects, final; a failure clears the token. */
    method AddGeneric() returns (r: int)
      modifies this
      ensures Run(r, State()) == Finish(GenericPhase(env, old(State())))
    {
      var count;
      r, count := CtlInitGeneric();
      if r >= 0 {
        r := GenericLoop(count);
        if r >= 0 {
          r := CtlFinalGeneric();
        }
      }
      if r < 0 {
        Clear();
      } else {
        r := SC_SUCCESS;
      }
    }

    /** The key objects of a slot whose certificate is added. */
    method AddKeys(c: CertSlot, keyPath: seq<byte>, named: bool) returns (end: SlotEnd)
      requires keyPath == RebasedKeyPath(c.info.path)
      modifies this`objects
      ensures var s := KeyStep(c, old(State()), named); State() == s.t && end == EndOf(s)
    {
      if c.spki < 0 {
        return Aborted(c.spki);
      }
      var usage := if c.usage.Some? then c.usage.value else SC_X509_DATA_ENCIPHERMENT + SC_X509_DIGITAL_SIGNATURE;
      if !c.rsa {
        return Next;
      }
      var bits := c.modulusBytes * 8;
      var keyRef := ByteAt(c.info.id, 0) * 256 + ByteAt(c.info.id, 1);
      var r := Store(PubKeyObj(c.info.id, c.info.appLabel, keyRef, bits, usage, true), c.pubAdd);
      if r < 0 {
        return Aborted(r);
      }
      r := Store(PrivKeyObj(c.info.id, c.info.appLabel, keyPath, keyRef, bits, usage, true,
                            SC_PKCS15_CO_FLAG_PRIVATE, PINS[0].id), c.privAdd);
      if r < 0 {
        return Aborted(r);
      }
      end := Next;
    }

    /** After the certificate is added: an unnamed token takes the certificate's CN. */
    method NameToken(c: CertSlot, keyPath: seq<byte>, named: bool) returns (end: SlotEnd, named': bool)
      requires keyPath == RebasedKeyPath(c.info.path)
      modifies this`tokenLabel, this`objects
      ensures var s := NameStep(c, old(State()), named);
        State() == s.t && end == EndOf(s) && (s.Go? ==> named' == s.named)
    {
      named' := named;
      if !named && c.cn.Some? {
        if !c.allocOk {
          return Aborted(SC_ERROR_OUT_OF_MEMORY), named';
        }
        tokenLabel := c.cn.value;
        named' := true;
      }
      end := AddKeys(c, keyPath, named');
    }

    /** One certificate slot: the object information, the private-key path
        rebased in its own buffer, the certificate read from the original path,
        parsed and added; a failure there skips the slot. */
    method ProcessSlot(i: nat, named: bool) returns (end: SlotEnd, named': bool)
      requires i < |env.certs|
      modifies this
      ensures var s := SlotStep(env.certs[i], env.files, old(State()), named);
        State() == s.t && end == EndOf(s) && (s.Go? ==> named' == s.named)
    {
      var c := env.certs[i];
      var r, info := CtlNextCert(i);
      if r < 0 {
        return Left(r), named;
      }
      var value := new byte[SC_MAX_PATH_SIZE](k => ByteAt(info.path, k));
      assert value[..|info.path|] == info.path;
      var len := RebaseKeyPath(value, |info.path|);
      var keyPath := value[..len];
      if info.path !in env.files || c.parse < 0 || !c.hasKey {
        return Next, named;
      }
      r := Store(CertObject(info, env.files[info.path]), c.certAdd);
      if r < 0 {
        return Next, named;
      }
      end, named' := NameToken(c, keyPath, named);
    }

    /** The certificate loop, without its init and final calls. */
    method WalkCerts(count: nat) returns (end: SlotEnd)
      requires count == |env.certs|
      modifies this
      ensures var s := CertLoop(env.certs, env.files, 0, old(State()), false);
        State() == s.t && end == EndOf(s)
    {
      var named := false;
      var i: nat := 0;
      while i < count
        invariant i <= count
        invariant CertLoop(env.certs, env.files, 0, old(State()), false) == CertLoop(env.certs, env.files, i, State(), named)
      {
        end, named := ProcessSlot(i, named);
        if !end.Next? {
          return;
        }
        i := i + 1;
      }
      end := Next;
    }

    /** The certificate phase: init, the slots, and the finalizer on every way
        out but a failing GET_NEXT_CERT_OBJECT, which returns at once. */
    method AddCerts() returns (r: int)
      modifies this
      ensures Run(r, State()) == Finish(CertPhase(env, old(State())))
    {
      var count;
      r, count := CtlInitCerts();
      if r < 0 {
        Clear();
        return;
      }
      var end := WalkCerts(count);
      if end.Left? {
        return end.code;
      }
      r := CtlFinalCerts();
      if end.Aborted? {
        r := end.code;
      }
      if r < 0 {
        Clear();
      } else {
        r := SC_SUCCESS;
      }
    }

    /** `sc_pkcs15emu_cac_init`. */
    method Init() returns (r: int)
      modifies this
      ensures Run(r, State()) == Emulate(cardType, env, old(State()))
    {
      SetDefaults();
      r := AddPins();
      if r != SC_SUCCESS {
        return;
      }
      r := AddGeneric();
      if r != SC_SUCCESS {
        return;
      }
      r := AddCerts();
    }

    /** `sc_pkcs15emu_cac_init_ex`: only a CAC card is emulated. */
    method InitEx() returns (r: int)
      modifies this
      ensures Run(r, State()) == CacPass.InitEx(cardType, env, old(State()))
    {
      if DetectCard(cardType) != SC_SUCCESS {
        return SC_ERROR_WRONG_CARD;
      }
      r := Init();
    }
  }
}

=== FILE: sc_types.dfy ===
/** Types shared by the card layer: bytes, the library's return codes and card paths. */
module ScTypes {

  /** An unsigned 8-bit value (`u8`). */
  type byte = x: int | 0 <= x < 256

  /** Truncation of an integer to `u8`, as an assignment to a `u8` lvalue does. */
  function U8(x: nat): (b: byte)
    ensures x < 256 ==> b == x
    ensures (x - b) % 256 == 0
  {
    x % 256
  }

  datatype Option<+T> = None | Some(value: T)

  /** A failing return code of the library: every error is negative, 0 is success. */
  type ErrorCode = x: int | x < 0 witness -1

  // Return codes. Their numeric values live in a header that is not part of
  // this model; the model relies only on their being negative and distinct.
  const SC_SUCCESS: int := 0
  const SC_ERROR_TRANSMIT_FAILED: ErrorCode := -1107
  const SC_ERROR_ILLEGAL_RESPONSE: ErrorCode := -1110
  const SC_ERROR_UNKNOWN_REPLY: ErrorCode := -1114
  const SC_ERROR_INVALID_CARD: ErrorCode := -1210
  const SC_ERROR_INVALID_ARGUMENTS: ErrorCode := -1300
  const SC_ERROR_OUT_OF_MEMORY: ErrorCode := -1404
  const SC_ERROR_WRONG_CARD: ErrorCode := -1406

  /** How a path is to be interpreted by a select (the `type` of `struct sc_path`). */
  datatype PathKind =
    | FileId      // a bare file identifier
    | DfName      // a DF name (application identifier)
    | FullPath    // a concatenation of 2-byte file identifiers
    | OtherKind   // any other path type: no case of the driver handles it

  /** `struct sc_path`: the kind and the `len` significant bytes of `value`. */
  datatype Path = Path(kind: PathKind, value: seq<byte>)

  /** The master file identifier `3F 00`. */
  const MF: seq<byte> := [0x3F, 0x00]

  /** The byte at index i of a fixed-size C buffer whose first |s| bytes are s;
      bytes past the significant length are taken to be zero. */
  function ByteAt(s: seq<byte>, i: nat): (b: byte)
    ensures i < |s| ==> b == s[i]
    ensures i >= |s| ==> b == 0
  {
    if i < |s| then s[i] else 0
  }

  /** Appending in two steps is appending the two parts at once. */
  lemma AppendAssoc<T>(a: seq<T>, b: seq<T>, c: seq<T>)
    ensures a + b + c == a + (b + c)
  {
  }
}

=== FILE: transport.dfy ===
/** The card transport the drivers talk to: command frames (APDUs), a scripted
    sequence of card replies standing in for the reader, the card lock, and the
    translation of status words into return codes. */
module Transport {
  import opened ScTypes

  /** A command frame: class, instruction, parameters, command data, expected
      length and the size of the caller's response buffer. */
  datatype Apdu = Apdu(cla: byte, ins: byte, p1: byte, p2: byte, data: seq<byte>, le: nat, resplen: nat)

  /** What the reader delivers for one command: a transport failure, or the
      card's response bytes with its two status bytes. */
  datatype Reply =
    | TransportError(code: ErrorCode)
    | Response(data: seq<byte>, sw1: byte, sw2: byte)

  /** Observable events on the card, in order. */
  datatype Event = Locked | Unlocked | Sent(apdu: Apdu)

  /** The result of one transmit as the caller sees it. */
  datatype Received = Received(code: int, resp: seq<byte>, sw1: byte, sw2: byte)

  /** A return code 0 or below, as `sc_lock` gives. */
  type LockCode = x: int | x <= 0

  /** The status-word table of the base driver: a status word whose first byte
      is 90 is success; every other status word maps to its own error code. */
  function SwToError(sw1: byte, sw2: byte): (r: int)
    ensures r <= 0
    ensures r == 0 <==> sw1 == 0x90
    ensures r != 0 ==> r < -0xFFFF
  {
    if sw1 == 0x90 then 0 else -(0x10000 + sw1 * 256 + sw2)
  }

  /** The first `n` bytes of `s`, or all of it when it is shorter. */
  function Truncate(s: seq<byte>, n: nat): (t: seq<byte>)
    ensures |t| <= n && t <= s
    ensures |s| <= n ==> t == s
  {
    if |s| <= n then s else s[..n]
  }

  /** The i-th scripted reply; past the end of the script the reader fails. */
  function ReplyAt(script: seq<Reply>, i: nat): Reply {
    if i < |script| then script[i] else TransportError(SC_ERROR_TRANSMIT_FAILED)
  }

  /** What the caller receives for a reply to a command with the given buffer size. */
  function Receive(reply: Reply, resplen: nat): (rec: Received)
    ensures reply.TransportError? ==> rec.code == reply.code
    ensures reply.Response? ==> rec.code == 0 && rec.resp <= reply.data && |rec.resp| <= resplen
  {
    match reply
    case TransportError(c) => Received(c, [], 0, 0)
    case Response(d, s1, s2) => Received(0, Truncate(d, resplen), s1, s2)
  }

  /** True when a command was delivered and the card's status word means success. */
  predicate ReplyOk(reply: Reply) {
    reply.Response? && SwToError(reply.sw1, reply.sw2) == 0
  }

  /** The code a caller returns for a reply when it only checks transport and status word. */
  function ReplyError(reply: Reply): (r: int)
    ensures r <= 0
    ensures r == 0 <==> ReplyOk(reply)
  {
    match reply
    case TransportError(c) => c
    case Response(_, s1, s2) => SwToError(s1, s2)
  }

  /** The events of sending the first `n` commands of `cmds`, in order. */
  function SentFirst(cmds: seq<Apdu>, n: nat): (ev: seq<Event>)
    requires n <= |cmds|
    ensures |ev| == n
  {
    if n == 0 then [] else SentFirst(cmds, n - 1) + [Sent(cmds[n - 1])]
  }

  /** The i-th event of sending the first `n` commands is the sending of command i. */
  lemma {:induction false} SentFirstAt(cmds: seq<Apdu>, n: nat, i: nat)
    requires i < n <= |cmds|
    ensures SentFirst(cmds, n)[i] == Sent(cmds[i])
  {
    if i < n - 1 {
      SentFirstAt(cmds, n - 1, i);
    }
  }

  /** Sending one more command appends its event. */
  lemma SentFirstNext(t: seq<Event>, cmds: seq<Apdu>, n: nat)
    requires n < |cmds|
    ensures t + SentFirst(cmds, n) + [Sent(cmds[n])] == t + SentFirst(cmds, n + 1)
  {
    assert SentFirst(cmds, n + 1) == SentFirst(cmds, n) + [Sent(cmds[n])];
  }

  /** Commands appended after the first `n` do not change their events. */
  lemma {:induction false} SentFirstPrefix(a: seq<Apdu>, b: seq<Apdu>, n: nat)
    requires n <= |a|
    ensures SentFirst(a + b, n) == SentFirst(a, n)
  {
    if n > 0 {
      SentFirstPrefix(a, b, n - 1);
      assert (a + b)[n - 1] == a[n - 1];
    }
  }

  /** A card in a reader: its ATR, class byte and type, the replies it will
      give and how many of them it has given, the events so far, and the
      lock depth the library keeps for it. */
  class Card {
    var atr: seq<byte>
    var cla: byte
    const cardType: int
    const script: seq<Reply>
    var pos: nat
    var trace: seq<Event>
    var lockDepth: nat
    /** What `sc_lock` returns on this card. */
    const lockResult: LockCode

    constructor (atr: seq<byte>, cardType: int, script: seq<Reply>, lockResult: LockCode)
      ensures this.atr == atr && this.cardType == cardType && this.script == script
      ensures this.lockResult == lockResult && cla == 0 && pos == 0 && trace == [] && lockDepth == 0
    {
      this.atr := atr;
      this.cla := 0;
      this.cardType := cardType;
      this.script := script;
      this.pos := 0;
      this.trace := [];
      this.lockDepth := 0;
      this.lockResult := lockResult;
    }

    /** `sc_transmit_apdu`: sends one command and takes the next scripted reply. */
    method Transmit(apdu: Apdu) returns (rec: Received)
      modifies this`pos, this`trace
      ensures trace == old(trace) + [Sent(apdu)]
      ensures pos == old(pos) + 1
      ensures rec == Receive(ReplyAt(script, old(pos)), apdu.resplen)
    {
      rec := Receive(ReplyAt(script, pos), apdu.resplen);
      pos := pos + 1;
      trace := trace + [Sent(apdu)];
    }

    /** `sc_lock`: on success the lock depth grows by one. */
    method Lock() returns (r: int)
      modifies this`lockDepth, this`trace
      ensures r == lockResult
      ensures r == 0 ==> lockDepth == old(lockDepth) + 1 && trace == old(trace) + [Locked]
      ensures r != 0 ==> lockDepth == old(lockDepth) && trace == old(trace)
    {
      r := lockResult;
      if r == 0 {
        lockDepth := lockDepth + 1;
        trace := trace + [Locked];
      }
    }

    /** `sc_unlock`: only a held lock can be released. */
    method Unlock()
      requires lockDepth > 0
      modifies this`lockDepth, this`trace
      ensures lockDepth == old(lockDepth) - 1 && trace == old(trace) + [Unlocked]
    {
      lockDepth := lockDepth - 1;
      trace := trace + [Unlocked];
    }
  }
}
